=== FILE: README.md ===
# World Covers catalog: temporal identity and jurisdiction resolver

This project is a Dafny model of the core of the World Covers API, a Django
catalog of postal history. The model covers the following.

- **Stable containers and their identities.** A postal facility and an
  administrative unit are stable containers. Each owns dated identities that
  hold its name, type and other details. Every identity is valid over the
  half-open interval `[effective_from_date, effective_to_date)`, and a missing
  end means the identity is still open.
- **Identity resolution.** The catalog picks the identity a container had on
  a date, or its current (open) identity. When several identities match,
  the model's `Meta.ordering` decides which one `.first()` returns.
- **Second-hop resolution.**
  - An affiliation's unit is named as it was on the affiliation's start.
  - A unit's parent is named as it was on the child identity's start.
  - Coordinates fall back from the identity's override to the facility.
- **Responsible groups.** A postmark's responsible groups are derived from its
  facility identity's jurisdictional affiliations and the units' active
  responsibilities. The region permission of the API is built on them, and so
  are image moderation and the `my_region` list.
- **API endpoints.** The selection rules of the endpoints are modelled:
  `identity_at_date` with its 400/404 branches, the timelines, `children`,
  `facilities`, `responsible_groups`, `my_responsibilities`, `my_region` and
  `by_facility`. So is audit stamping on create and update.
- **Filter methods.** The filters on postmarks, facility identities and
  postcovers are modelled.
- **Serializer and admin columns.** The computed serializer fields are
  modelled, and so are the admin's list columns, `save_model` and the inline
  `save_formset` stamping.

Dates are integers in `YYYYMMDD` form, so their order is calendar order.
Tables are sequences of immutable records, and ORM queries are filters over
them. The clock is a parameter:

- `date.today()` is a `Date` parameter.
- Django's `Now()` is an `Instant`, a day plus the microseconds elapsed in
  it. That is the precision of MySQL's `CURRENT_TIMESTAMP(6)`, which `Now()`
  compiles to under Django 4.2 and later. A `DATE` column compared with it is
  read as midnight of that day, so a row ending today still governs only at
  exactly 00:00:00.000000.

The requesting user is a `Views.User`: an id, the authentication and
superuser flags and a set of group ids. Like Django's anonymous user, an
unauthenticated `User` has no groups and is not a superuser; the type says
so, and every endpoint and permission takes a `User`.

The modules follow the program's files:

- `Base` holds options, filtering, counting and ASCII case folding.
- `Temporal` holds intervals, dated rows and `.first()` under an ordering.
- `Models` covers `common/models.py`.
- `Views` covers `common/views.py`.
- `Filters` covers `common/filters.py`.
- `Serializers` covers `common/serializers.py`.
- `Admin` covers `common/admin.py`.

Each `.first()` is modelled by an `Ordering`:

| rows | ordering | effect |
|---|---|---|
| facility identities | ascending start (`common/models.py:171`) | the earliest-starting match wins |
| unit identities | descending start (`common/models.py:297`) | the latest-starting match wins |
| affiliations | none, so the primary key | the lowest id wins |

The database leaves the order of rows with equal sort keys open. The
contracts therefore promise a match whose key is extremal among all matches,
not which of several such rows. `Temporal.IsFirstOpen` and
`Temporal.IsFirstCovering` state this, and every column or field built on a
resolved identity or affiliation carries it.

## Model

| member | source | states |
|---|---|---|
| Temporal.First | common/models.py:84 | `.first()` under a model's ordering returns nothing exactly for an empty query set, otherwise a member that comes no later than any other member in the ordering |
| Temporal.FirstIgnoresStorageOrder | common/models.py:171 | the row `.first()` picks depends only on the set of matching rows, never on the order they are stored in |
| Temporal.AtDate | common/models.py:86-91 | identity at a date: the result covers the date (start inclusive, end exclusive, so an identity ending on `d` is never returned), is `None` exactly when no identity covers it, and otherwise precedes every covering identity in the ordering |
| Temporal.Current | common/models.py:82-84 | current identity: an open identity, `None` exactly when none is open, otherwise the first open one in the ordering |
| Temporal.OverlapsIffCommonDate | common/models.py:88-91 | two half-open intervals overlap exactly when some date lies in both |
| Temporal.DisjointResolvesToCoveringRow | common/models.py:88-91 | when a container's identities do not overlap, resolving at any date inside an identity's interval returns exactly that identity, whatever the ordering |
| Temporal.DisjointHasOneOpenAtMost | common/models.py:82-84 | non-overlapping identities have at most one open identity |
| Temporal.CurrentIsRowAtLaterDates | common/models.py:82-91 | with non-overlapping identities, the current identity is also the identity at every date from its start onwards |
| Temporal.SortByStart | common/views.py:93 | `order_by('effective_from_date')`: the result is ascending by start and is a permutation of the input |
| Base.Join | common/admin.py:329-331 | `", ".join(names)`: every name stands at its offset in order, a separator stands between each pair of neighbours, and the text ends with the last name |
| Base.JoinedByIsJoin | common/admin.py:569-572 | the positional description of a joined list fits exactly one text, the joined one |
| Models.FacilityIdentityAt | common/models.py:86-91 | a facility's identity at `d` is one of its own identities covering `d`, `None` when none does, and among several the one with the smallest start (ascending ordering at line 171) |
| Models.FacilityCurrentIdentity | common/models.py:82-84 | a facility's current identity is an open identity of its own, `None` when none is open, and the earliest-starting one among several |
| Models.UnitIdentityAt | common/models.py:211-216 | a unit's identity at `d` covers `d`, is `None` when none does, and among several is the one with the largest start (descending ordering at line 297) |
| Models.UnitCurrentIdentity | common/models.py:207-209 | a unit's current identity is an open identity of its own, `None` when none is open, and the latest-starting one among several |
| Models.LowestIdFirstIsUnique | common/admin.py:560-562 | with unique primary keys, `.first()` by primary key has exactly one candidate among a container's open rows |
| Models.CurrentAffiliationIsFirstOpen | common/admin.py:560-562 | with unique primary keys, the open affiliation `.first()` returns is the lowest-id open affiliation of the facility identity |
| Models.RichmondScenario | common/models.py:86-91 | a facility renamed on 1863-06-01 resolves to its first name before that day, to its second name on and after it, to nothing before 1860, and its current identity is the second |
| Models.IdentityCoordinates | common/models.py:173-177 | the identity's override pair is used only when both override values are truthy (present and non-zero); otherwise the facility's own pair is returned unchanged |
| Models.ParentIdentityAtThisTime | common/models.py:299-305 | no parent gives `None`; otherwise the parent's latest-starting identity covering the child identity's start date, `None` only when none covers it |
| Models.AffiliationUnitIdentity | common/models.py:398-400 | the unit's identity is resolved at the affiliation's own start date: it covers that date, is `None` exactly when none does, and is the latest-starting such identity |
| Models.RenamedUnitShowsBothNames | common/models.py:398-400 | for a unit renamed after an affiliation began, the affiliation keeps showing the old name while the unit's current identity carries the new one |
| Models.GovernsAtIsHalfOpenAfterMidnight | common/models.py:573-575 | after midnight, "open or ending no earlier than now" is the half-open rule, apart from the start date, which is not checked |
| Models.EndingTodayGovernsOnlyAtMidnight | common/models.py:573-575 | an affiliation ending today still governs at exactly midnight, when the date read as a timestamp equals `NOW()`, and at no later microsecond of that day |
| Models.GoverningUnits | common/models.py:573-578 | the units reached from a facility identity are exactly those of its affiliations that are open or end no earlier than `now` |
| Models.ResponsibleRows | common/models.py:573-584 | the responsibilities selected are exactly the active ones for a governing unit, and as many as there are such responsibilities |
| Models.ResponsibleRowsAreFilter | common/models.py:578-584 | collecting the governing units first and then selecting `unit__in` those units picks, row for row and in table order, the responsibilities a direct test of each would pick |
| Models.ResponsibleGroups | common/models.py:570-586 | a group is listed exactly when an active responsibility of that group belongs to a governing unit; one entry per such responsibility |
| Models.ResponsibleGroupsIgnoreStarts | common/models.py:573-575 | the responsible groups do not depend on the affiliations' start dates at all |
| Models.ResponsibleGroupsDistinctForOneUnit | common/models.py:345 | under the unique (unit, group) constraint, a postmark governed by a single unit lists each group at most once |
| Models.ResponsibleGroupsMayRepeatAcrossUnits | common/models.py:578-586 | a group responsible for two governing units is listed twice |
| Models.FacilityLabel | common/models.py:93-97 | the facility's label is "name (reference code)" for its earliest-starting open identity, or the bare reference code when no identity is open |
| Models.UnitLabel | common/models.py:218-222 | the unit's label is "name (reference code)" for its latest-starting open identity, or the bare reference code when no identity is open |
| Models.CurrentNameOrCode | common/models.py:351-354 | the name of the unit's latest-starting open identity, falling back to its reference code when no identity is open |
| Models.ResponsibilityLabel | common/models.py:351-354 | "group → unit": the group's name, an arrow, then the name of the unit's latest-starting open identity or, when none is open, its reference code |
| Models.SpanLabel | common/models.py:179-180 | the identity label is "name (from - to)", with "present" for an open end |
| Models.SpanLabelReadsBack | common/models.py:179-180 | every identity label starts with the name, " (", the start date and " - ", then holds the end date or "present" for an open identity, and ends with ")" |
| Models.AffiliationLabel | common/models.py:402-406 | the affiliation label names the facility and the unit by its latest-starting identity at the affiliation's start, or "Unknown" when the unit had no identity then |
| Views.HasObjectPermission | common/views.py:47-59 | GET, HEAD and OPTIONS are always allowed; a change to a postmark is allowed exactly when one of the user's groups is among its responsible groups, with no superuser bypass; any other change is allowed exactly to authenticated users |
| Views.NobodyMutatesAnUngovernedPostmark | common/views.py:53-56 | a postmark with no responsible group cannot be changed by anyone, superusers included |
| Views.AnonymousNeverMutatesAPostmark | common/views.py:53-56 | an anonymous user belongs to no group, so no change to a postmark is allowed to them, whatever groups are responsible for it |
| Views.IdentityAtDate | common/views.py:97-123 | 404 for an unknown facility; 400 "date parameter required" for a missing or empty date; 400 "Invalid date format" for an unparseable one; 404 naming the date when no identity covers it; otherwise the earliest-starting identity covering the date |
| Views.FacilityTimeline | common/views.py:89-95 | all the facility's identities and only those, ascending by start |
| Views.UnitTimeline | common/views.py:165-171 | all the unit's identities and only those, ascending by start |
| Views.Children | common/views.py:173-185 | the units with an open identity whose parent is the given unit, one entry per such identity |
| Views.ChildrenAreUnitsWhoseCurrentParentIs | common/views.py:173-185 | with at most one open identity per unit, `children` lists exactly the units whose current identity names the parent |
| Views.Facilities | common/views.py:187-198 | the facilities of every open affiliation to the unit, one entry per open affiliation |
| Views.FacilitiesMayRepeat | common/views.py:191-196 | a facility with two open affiliations to the unit is listed twice |
| Views.UnitResponsibilities | common/views.py:200-206 | the unit's active responsibilities and only those; under the unique (unit, group) constraint no group appears twice |
| Views.MyResponsibilities | common/views.py:208-219 | 403 exactly for anonymous users; otherwise the unit of every active responsibility held by one of the user's groups, one entry per responsibility |
| Views.MyRegion | common/views.py:357-387 | 403 exactly for anonymous users; otherwise exactly the postmarks whose facility identity has an open affiliation to a unit one of the user's groups is actively responsible for |
| Views.MyRegionIsMutable | common/views.py:357-387 | every postmark `my_region` lists may be changed by that user at any instant |
| Views.PermissionReachesBeyondMyRegion | common/views.py:53-56 | an affiliation with a future end date grants change permission without placing the postmark in `my_region` |
| Views.ByFacility | common/views.py:422-434 | 400 exactly when `facility_id` is missing or empty; a server error exactly when it is not an integer; otherwise the postmarks of every identity of the facility with that number |
| Views.ByFacilityNegativeIdFindsNothing | common/views.py:431-432 | a negative `facility_id` is accepted and lists no postmark |
| Views.Moderate | common/views.py:441-487 | 403 "Authentication credentials were not provided." exactly for anonymous users (IsAuthenticatedOrReadOnly); for others 403 "You are not responsible for this region" exactly when none of the user's groups is responsible for the image's postmark, otherwise the given status |
| Views.Approve | common/views.py:441-469 | approve answers "image approved" exactly when the user is authenticated and responsible; otherwise the 403 of the failed check |
| Views.Reject | common/views.py:441-487 | reject answers "image rejected" exactly when the user is authenticated and responsible; otherwise the 403 of the failed check |
| Views.ModerationAgreesWithPostmarkPermission | common/views.py:441-487 | approving or rejecting an image succeeds exactly when the user is authenticated and may change its postmark through the API |
| Views.PerformCreate | common/views.py:83-84 | create stamps both the creator and the modifier with the requesting user and keeps the row |
| Views.PerformUpdate | common/views.py:86-87 | update keeps the creator and stamps only the modifier |
| Views.PerformCreatePostcover | common/views.py:551-556 | a new postcover is owned by, created by and last modified by the requesting user |
| Views.CreatorSurvivesUpdates | common/views.py:83-87 | after a create and any number of updates, the creator is still recorded and the modifier is the last editor |
| Filters.FilterQ | common/filters.py:115-124 | an empty value returns the input unchanged; otherwise exactly the postmarks whose key, facility name, rate or other characteristics contain the value ignoring case |
| Filters.FilterQIdempotent | common/filters.py:115-124 | applying the search twice gives the same rows as applying it once |
| Filters.KeyFindsItsPostmark | common/filters.py:120-122 | searching for a postmark's own key finds it |
| Filters.CurrentOnIsCovers | common/filters.py:147-156 | the "current affiliation" test is the half-open rule of identity resolution |
| Filters.FilterByStateAsWritten | common/filters.py:126-161 | the code as written: an empty value returns the input, and every other value fails, because the unit lookup names fields the unit does not have |
| Filters.FilterByState | common/filters.py:126-161 | the lookup through unit identities: an empty value returns the input, no matching unit gives nothing, otherwise exactly the postmarks currently affiliated with a matching unit |
| Filters.FilterByCurrentStateAsWritten | common/filters.py:228-258 | the code as written: every non-empty value fails like `filter_by_state` |
| Filters.FilterByCurrentState | common/filters.py:228-258 | the lookup through unit identities: exactly the facility identities currently affiliated with a matching unit |
| Filters.StateFiltersAgree | common/filters.py:126-161 | a postmark passes the postmark state filter exactly when its facility identity passes the identity state filter |
| Filters.FilterByStateFindsWhatAsWrittenRejects | common/filters.py:137-139 | for "va" with a currently affiliated Virginia, the corrected filter finds the postmark where the code as written raises an error |
| Filters.FilterHasImages | common/filters.py:163-169 | `None` returns the input; true keeps exactly the postmarks with an image; false keeps exactly those without one |
| Filters.FilterHasImagesPartitions | common/filters.py:163-169 | the true and false results share no postmark and together are as long as the input |
| Filters.FilterHasCoordinates | common/filters.py:260-272 | `None` returns the input; true keeps the identities whose facility has both coordinates; false keeps those whose facility misses either one |
| Filters.FilterHasCoordinatesComplementary | common/filters.py:260-272 | each identity lands in exactly one of the true and false results |
| Filters.PostmarkCount | common/serializers.py:456-457 | a cover's count is the number of its cover–postmark links, zero exactly when it has none |
| Filters.FilterPostmarkCountMin | common/filters.py:314-321 | exactly the covers with at least `value` postmarks; a bound of zero or less keeps all |
| Filters.FilterPostmarkCountMax | common/filters.py:323-330 | exactly the covers with at most `value` postmarks; a negative bound keeps none |
| Filters.PostmarkCountBoundsPartition | common/filters.py:314-330 | `min = v` and `max = v - 1` split the covers between them |
| Filters.PostmarkCountRange | common/filters.py:314-330 | combining both bounds keeps exactly the covers whose count lies in the range |
| Serializers.FacilityCurrentName | common/serializers.py:126-128 | null exactly when the facility has no open identity, otherwise the name of its earliest-starting open identity |
| Serializers.FacilityCurrentType | common/serializers.py:130-132 | null exactly when the facility has no open identity, otherwise the type of its earliest-starting open identity |
| Serializers.UnitCurrentName | common/serializers.py:50-52 | null exactly when the unit has no open identity, otherwise the name of its latest-starting open identity |
| Serializers.UnitCurrentType | common/serializers.py:54-56 | null exactly when the unit has no open identity, otherwise the type of its latest-starting open identity |
| Serializers.UnitCurrentFieldsAgree | common/serializers.py:50-56 | current name and type are null together, and the unit's label is built from the same current name |
| Serializers.ResponsibilityUnitNameField | common/serializers.py:93-95 | the responsibility's unit name is the name of the unit's latest-starting open identity, or its reference code when no identity is open |
| Serializers.ResponsibilityUnitNameFieldAgrees | common/serializers.py:93-95 | that name is the unit list's current name when there is one and the reference code otherwise, and it is the unit half of the responsibility's string rendering |
| Serializers.ParentName | common/serializers.py:69-73 | null when there is no parent or no parent identity at the child's start; otherwise the name of the parent's latest-starting identity covering that date |
| Serializers.AffiliationUnitName | common/serializers.py:168-170 | null exactly when the unit had no identity at the affiliation's start; otherwise the name of its latest-starting identity covering that date |
| Serializers.AffiliationShowsNameAtStart | common/serializers.py:168-170 | with non-overlapping unit identities, the name shown is that of the identity covering the start date |
| Serializers.CoordinatesField | common/serializers.py:146-150 | a latitude/longitude object exactly when both resolved values are truthy, so a zero coordinate is reported as absent |
| Serializers.MediaPath | common/serializers.py:289-291 | the path handed to `build_absolute_uri` is `MEDIA_URL`, the folder and a slash, followed by the stored file name |
| Serializers.StoredName | common/serializers.py:289-291 | a path names a file of a folder exactly when it starts with that folder's media prefix, and is then that prefix followed by the name |
| Serializers.StoredNameOfMediaPath | common/serializers.py:289-291 | reading the file name back from an image's media path gives the stored file name, so distinct files of a folder get distinct paths |
| Serializers.MediaFoldersNeverCollide | common/serializers.py:289-291 | a postmark image and a postcover image never share a media path, whatever their file names |
| Serializers.EquatorHasCoordinatesButSerializesNone | common/serializers.py:146-150 | a facility on the equator has coordinates, and the filter counts them, but the serializer reports none |
| Serializers.ImageUrl | common/serializers.py:283-292 | no URL exactly when the file name is empty or there is no request; otherwise what `build_absolute_uri` makes of the media path of the folder and file |
| Serializers.PostmarkImageUrl | common/serializers.py:283-292 | a postmark image URL is the absolute form of its media path under the `postmarks` folder, and is absent without a file name or a request |
| Serializers.PostcoverImageUrl | common/serializers.py:434-443 | a postcover image URL is the absolute form of its media path under the `postcovers` folder, and is absent without a file name or a request |
| Serializers.ResponsibleGroupsField | common/serializers.py:318-321 | one `{id, name}` per responsible group, in the same order and of the same length |
| Serializers.ResponsibleGroupsFieldListsResponsibleGroups | common/serializers.py:375-378 | an id is listed exactly when an active responsibility of that group belongs to a unit governing the postmark |
| Admin.SaveModel | common/admin.py:35-39 | a new record gets the user as creator and an existing one keeps its creator; every save records the user as modifier |
| Admin.SaveModelMatchesApi | common/admin.py:35-39 | the admin's stamping matches the API's create and update stamping |
| Admin.InlineStampAsWritten | common/admin.py:52-58 | as written: the creator is never changed, and the modifier is stamped only on rows that already had one, because `hasattr` is false for an unset non-null foreign key |
| Admin.InlineStamp | common/admin.py:52-58 | as documented: a row without a creator gets the user, a row with one keeps it, and every row gets the user as modifier |
| Admin.NewInlineRowStampedOnlyWhenCorrected | common/admin.py:52-58 | a new inline row is left unstamped as written and stamped with the user as documented |
| Admin.Upsert | common/admin.py:47-61 | saving one row: the row is present afterwards, rows with other keys are kept, and nothing else is added |
| Admin.SaveFormsetAsWritten | common/admin.py:47-61 | as written, the stored table is left exactly as it was: a new row's key never appears, and an edited row keeps its stored version |
| Admin.SaveFormset | common/admin.py:47-61 | as documented: every submitted row is stored stamped, a submitted key holds only the stamped row so no earlier version of an edited row survives, rows the form did not submit are kept, and nothing else is stored |
| Admin.SaveOneMore | common/admin.py:51-58 | saving one more submitted row on top of the rows saved before it keeps every submitted row stored and alone under its key, keeps the unsubmitted rows and adds nothing else |
| Admin.NewInlineRowLostAsWritten | common/admin.py:47-61 | a row added inline is lost as written and appended, stamped, as documented |
| Admin.EditedInlineRowDiscardedAsWritten | common/admin.py:47-61 | an inline edit of a stored row replaces it with the stamped edit as documented, while as written the stored version stays and the edit is lost |
| Admin.JoinOrDash | common/admin.py:329-331 | "-" for no names; otherwise the names in order with ", " between neighbours |
| Admin.FacilityCurrentNameDisplay | common/admin.py:252-254 | "-" when the facility has no open identity, otherwise the name of its earliest-starting open identity |
| Admin.UnitCurrentNameDisplay | common/admin.py:319-322 | "-" when the unit has no open identity, otherwise the name of its latest-starting open identity |
| Admin.UnitCurrentTypeDisplay | common/admin.py:324-327 | "-" when the unit has no open identity, otherwise the type of its latest-starting open identity |
| Admin.CurrentColumnsAgreeWithApi | common/admin.py:252-254 | the admin columns print "-" exactly where the API's list serializers give null, and the same name or type otherwise |
| Admin.UnitResponsibleGroupsDisplay | common/admin.py:329-331 | "-" when the unit has no active responsibility; otherwise the group names of its active responsibilities, in table order, joined by ", "; when no group is called "-", "-" appears exactly when there is none |
| Admin.ResponsibilityUnitName | common/admin.py:385-387 | the name of the unit's latest-starting open identity, or its reference code when no identity is open |
| Admin.ResponsibilityUnitNameIsLabelTail | common/admin.py:385-387 | the responsibility admin's unit column is the unit part of the responsibility's own label |
| Admin.AffiliationUnitNameDisplay | common/admin.py:423-425 | the name of the unit's latest-starting identity at the affiliation's start, or its reference code when it had no identity then |
| Admin.PostmarkAdminUnit | common/admin.py:559-566 | "-" when the postmark's facility identity has no open affiliation; otherwise, for the lowest-id open affiliation, the name its unit had at the affiliation's start as the API's `administrative_unit_name` gives it, or "-" when that is null |
| Admin.AdminUnitHidesClosingAffiliation | common/admin.py:559-567 | an affiliation with a future end date makes its unit's groups responsible while the admin column shows "-" |
| Admin.PostmarkResponsibleGroupsDisplay | common/admin.py:569-572 | "-" when no group is responsible; otherwise the names of the responsible groups, in order, joined by ", "; when no group is called "-", "-" appears exactly when none is responsible |
| Admin.GroupsColumnListsApiGroups | common/admin.py:569-572 | the responsible-groups column lists, in order, the names the API's `responsible_groups` field gives for the postmark, and "-" exactly when that field is empty |

## Left out

- ORM mechanics are not modelled: `select_related`, `prefetch_related`, `distinct` and query compilation. Queries are filters over in-memory sequences.
- HTTP routing, DRF rendering, pagination and the viewsets' default ordering are not modelled. Endpoint results are in table order.
- Settings, ASGI, `common/apps.py` and the import/export resources and commands are configuration or file I/O and are not modelled. `MEDIA_URL` is `/media/` (`woco/settings.py:160`).
- File checksums and the file handling in the image models' `save()` are not modelled: hashing and file objects.
- Parsing and clock calls are parameters: `date.fromisoformat` and the primary-key conversion are functions passed in; `date.today()`, `Now()` and the request's `build_absolute_uri` are parameters.
- Serializers.ImageUrl: `build_absolute_uri` percent-escapes the path and resolves dot segments before joining it to the scheme and host; neither step is modelled, so the contracts speak of the media path handed to it, and distinct file names are not promised distinct URLs.
- Decimal coordinates are scaled integers. The count filters take an integer bound; fractional bounds are not modelled.
- Case-insensitive matching folds ASCII letters only; Unicode case folding is not modelled.
- Empty filter values are skipped by django-filter before the filter method runs; the model keeps the method's own empty-value branch.
- The 404 of `get_object()` for an unknown primary key is modelled only in `Views.IdentityAtDate`. The other detail endpoints take the container itself.
- `add_color`, `add_date_range`, `my_collection`, the nested `get_current_identity` serializers, `get_main_image` and the other viewsets are plain CRUD or serialization and are not modelled.
- Deleting rows through an inline formset is not modelled in `Admin.SaveFormset`: it covers changed and added rows.
- Views.Children: states the units listed, not the `AdministrativeUnitListSerializer` output for each.
- Views.Facilities: states the facilities listed, not the `PostalFacilityListSerializer` output for each.

## Findings

| source | as written | input that shows it | evidently intended | confidence | as-written member | corrected member |
|---|---|---|---|---|---|---|
| common/filters.py:137-139 | the unit lookup filters `AdministrativeUnit` on `unit_abbreviation` and `unit_name`; those fields exist only on `AdministrativeUnitIdentity`, so Django raises `FieldError` for every non-empty value (the same lookup is at lines 238-240) | `state=va` with a postmark whose facility identity is currently affiliated with a unit whose identity is "Virginia" / "VA" | look units up through their identities (`identities__unit_abbreviation__iexact`, `identities__unit_name__icontains`) | high, not executed | Filters.FilterByStateAsWritten, Filters.FilterByCurrentStateAsWritten, Filters.FilterByStateFindsWhatAsWrittenRejects | Filters.FilterByState, Filters.FilterByCurrentState |
| common/admin.py:47-61 | `save_formset` stamps the instances from `formset.save(commit=False)` but never saves them, so inline additions and edits are discarded; and `hasattr(obj, "created_by")` is false while the non-null key is unset, so a new row is never given a creator | adding one new identity row inline on a facility's change form | stamp every instance (creator when unset, modifier always) and save it, as the mixin's docstring says | high, not executed | Admin.InlineStampAsWritten, Admin.SaveFormsetAsWritten, Admin.NewInlineRowLostAsWritten | Admin.InlineStamp, Admin.SaveFormset |

=== FILE: admin.dfy ===
/**
 The admin site's own logic (common/admin.py): audit stamping when a record is
 saved from its change form, audit stamping of inline rows, and the computed
 list columns (current name and type, responsible groups, the unit an
 affiliation or postmark belongs to). Forms, widgets, import/export resources
 and templates are not modelled.
 */
module Admin {
  import opened Base
  import opened Temporal
  import opened Models
  import Views
  import Serializers

  // ---------------------------------------------------------------------------
  // Change form: TimestampedModelAdmin.save_model

  /** Audit columns after saving a record from its change form: a newly added
      record (`change` false) records the user as creator; every save records
      the user as modifier. */
  function SaveModel(audit: Audit, change: bool, user: UserId): (r: Audit)
    ensures !change ==> r.createdBy == Some(user)
    ensures change ==> r.createdBy == audit.createdBy
    ensures r.modifiedBy == Some(user)
  {
    Audit(if change then audit.createdBy else Some(user), Some(user))
  }

  /** The admin change form and the API stamp the same audit columns: adding a
      record matches perform_create and changing one matches perform_update. */
  lemma {:induction false} SaveModelMatchesApi<T>(row: T, stored: Views.Stamped<T>, blank: Audit, user: Views.User)
    ensures SaveModel(blank, false, user.id) == Views.PerformCreate(row, user).audit
    ensures SaveModel(stored.audit, true, user.id) == Views.PerformUpdate(stored, row, user).audit
  {
  }

  // ---------------------------------------------------------------------------
  // Inline rows: InlineRevisionMixin.save_formset

  /** An inline row of a change form: its primary key, its columns and its audit
      columns. A row whose key is not yet in the table is a new one. */
  datatype Instance<T> = Instance(id: nat, row: T, audit: Audit)

  /** The audit columns an inline row ends up with under the mixin as written.
      Both audit foreign keys are non-null, so reading an unset one raises
      RelatedObjectDoesNotExist, an AttributeError, and `hasattr` answers false
      exactly when the key is unset. The creator test therefore never passes,
      and the modifier is stamped only on rows that already had one. */
  function InlineStampAsWritten(audit: Audit, user: UserId): (r: Audit)
    ensures r.createdBy == audit.createdBy
    ensures r.modifiedBy.Some? <==> audit.modifiedBy.Some?
    ensures r.modifiedBy.Some? ==> r.modifiedBy.value == user
  {
    var hasCreator := audit.createdBy.Some?;
    var hasModifier := audit.modifiedBy.Some?;
    Audit(
      if hasCreator && audit.createdBy.None? then Some(user) else audit.createdBy,
      if hasModifier then Some(user) else audit.modifiedBy)
  }

  /** The stamping the mixin's documentation describes: a row without a creator
      gets the user as creator, and every row gets the user as modifier. */
  function InlineStamp(audit: Audit, user: UserId): (r: Audit)
    ensures r.createdBy.Some? && r.modifiedBy == Some(user)
    ensures audit.createdBy.Some? ==> r.createdBy == audit.createdBy
    ensures audit.createdBy.None? ==> r.createdBy == Some(user)
  {
    Audit(if audit.createdBy.None? then Some(user) else audit.createdBy, Some(user))
  }

  /** On a new inline row (neither audit key set) the mixin as written leaves
      both keys unset, where the documented stamping sets both. */
  lemma NewInlineRowStampedOnlyWhenCorrected(user: UserId)
    ensures InlineStampAsWritten(Audit(None, None), user) == Audit(None, None)
    ensures InlineStamp(Audit(None, None), user) == Audit(Some(user), Some(user))
  {
  }

  function StampInstance<T>(x: Instance<T>, user: UserId): (r: Instance<T>)
    ensures r.id == x.id && r.row == x.row
    ensures r.audit.modifiedBy == Some(user) && r.audit.createdBy.Some?
  {
    x.(audit := InlineStamp(x.audit, user))
  }

  /** Saving one row: it replaces the row with the same key, or is added. */
  function Upsert<T>(table: seq<Instance<T>>, x: Instance<T>): (r: seq<Instance<T>>)
    ensures x in r
    ensures forall y :: y in table && y.id != x.id ==> y in r
    ensures forall y :: y in r ==> y == x || (y in table && y.id != x.id)
    ensures (exists y :: y in table && y.id == x.id) ==> |r| == |table|
    ensures (forall y :: y in table ==> y.id != x.id) ==> r == table + [x]
  {
    if exists i :: 0 <= i < |table| && table[i].id == x.id then
      var r := seq(|table|, i requires 0 <= i < |table| => if table[i].id == x.id then x else table[i]);
      assert forall y :: y in table && y.id != x.id ==> y in r by {
        forall y | y in table && y.id != x.id
          ensures y in r
        {
          var k :| 0 <= k < |table| && table[k] == y;
          assert r[k] == y;
        }
      }
      var j :| 0 <= j < |table| && table[j].id == x.id;
      assert r[j] == x;
      r
    else
      table + [x]
  }

  /** The mixin as written: the instances come back from
      `formset.save(commit=False)` and are stamped in memory, but nothing calls
      their `save()`, so the stored table is what it was before the form was
      submitted. */
  function SaveFormsetAsWritten<T>(table: seq<Instance<T>>, instances: seq<Instance<T>>, user: UserId): (r: seq<Instance<T>>)
    ensures forall i :: 0 <= i < |instances| && (forall y :: y in table ==> y.id != instances[i].id) ==>
      forall y :: y in r ==> y.id != instances[i].id
    ensures |r| == |table| && forall k :: 0 <= k < |table| ==> r[k] == table[k]
  {
    table
  }

  /** Every submitted row is stored, stamped with the user. */
  ghost predicate StoresAll<T>(r: seq<Instance<T>>, instances: seq<Instance<T>>, user: UserId)
  {
    forall i :: 0 <= i < |instances| ==> StampInstance(instances[i], user) in r
  }

  /** Every row of the table the form did not submit is still stored. */
  ghost predicate KeepsUnsubmitted<T>(r: seq<Instance<T>>, table: seq<Instance<T>>, instances: seq<Instance<T>>)
  {
    forall y :: y in table && (forall i :: 0 <= i < |instances| ==> instances[i].id != y.id) ==> y in r
  }

  /** A submitted key holds the submitted row only: no earlier version of an
      edited row survives next to it. */
  ghost predicate ReplacesSubmitted<T>(r: seq<Instance<T>>, instances: seq<Instance<T>>, user: UserId)
  {
    forall y, i :: y in r && 0 <= i < |instances| && y.id == instances[i].id ==> y == StampInstance(instances[i], user)
  }

  /** Every stored row was either in the table or submitted and stamped. */
  ghost predicate StoresNothingElse<T>(r: seq<Instance<T>>, table: seq<Instance<T>>, instances: seq<Instance<T>>, user: UserId)
  {
    forall y :: y in r ==> y in table || exists i :: 0 <= i < |instances| && y == StampInstance(instances[i], user)
  }

  /** The mixin as documented: every submitted row is stamped and saved, in
      form order. Rows of the table the form did not submit are left alone. */
  function SaveFormset<T>(table: seq<Instance<T>>, instances: seq<Instance<T>>, user: UserId): (r: seq<Instance<T>>)
    requires KeysDistinct((x: Instance<T>) => x.id, instances)
    ensures StoresAll(r, instances, user)
    ensures KeepsUnsubmitted(r, table, instances)
    ensures StoresNothingElse(r, table, instances, user)
    ensures ReplacesSubmitted(r, instances, user)
    decreases |instances|
  {
    if |instances| == 0 then table
    else
      var n := |instances| - 1;
      var front := instances[..n];
      assert KeysDistinct((x: Instance<T>) => x.id, front) by {
        forall i, j | 0 <= i < j < |front|
          ensures front[i].id != front[j].id
        {
          assert front[i] == instances[i] && front[j] == instances[j];
        }
      }
      var saved := SaveFormset(table, front, user);
      var r := Upsert(saved, StampInstance(instances[n], user));
      SaveOneMore(table, instances, user, saved, r);
      r
  }

  /** The inductive step of SaveFormset: saving the last submitted row on top of
      the rows saved before it keeps all three guarantees. */
  lemma SaveOneMore<T>(table: seq<Instance<T>>, instances: seq<Instance<T>>, user: UserId,
                       saved: seq<Instance<T>>, r: seq<Instance<T>>)
    requires |instances| > 0
    requires KeysDistinct((x: Instance<T>) => x.id, instances)
    requires StoresAll(saved, instances[..|instances| - 1], user)
    requires KeepsUnsubmitted(saved, table, instances[..|instances| - 1])
    requires StoresNothingElse(saved, table, instances[..|instances| - 1], user)
    requires ReplacesSubmitted(saved, instances[..|instances| - 1], user)
    requires r == Upsert(saved, StampInstance(instances[|instances| - 1], user))
    ensures StoresAll(r, instances, user)
    ensures KeepsUnsubmitted(r, table, instances)
    ensures StoresNothingElse(r, table, instances, user)
    ensures ReplacesSubmitted(r, instances, user)
  {
    var n := |instances| - 1;
    var front := instances[..n];
    var last := StampInstance(instances[n], user);
    forall i | 0 <= i < n
      ensures StampInstance(instances[i], user) in r
    {
      assert front[i] == instances[i];
      assert instances[i].id != instances[n].id;
    }
    forall y | y in table && (forall i :: 0 <= i < |instances| ==> instances[i].id != y.id)
      ensures y in r
    {
      assert forall i :: 0 <= i < |front| ==> front[i].id != y.id by {
        forall i | 0 <= i < |front|
          ensures front[i].id != y.id
        {
          assert front[i] == instances[i];
        }
      }
      assert y.id != instances[n].id;
    }
    forall y | y in r && y !in table
      ensures exists i :: 0 <= i < |instances| && y == StampInstance(instances[i], user)
    {
      if y != last {
        var i :| 0 <= i < |front| && y == StampInstance(front[i], user);
        assert front[i] == instances[i];
      }
    }
    forall y, i | y in r && 0 <= i < |instances| && y.id == instances[i].id
      ensures y == StampInstance(instances[i], user)
    {
      if i < n {
        assert instances[i].id != instances[n].id;
        assert front[i] == instances[i];
      }
    }
  }

  /** What the missing save costs on an edited row: the documented behaviour
      replaces the stored version with the stamped edit, while as written the
      stored version stays and the edit is lost. */
  lemma EditedInlineRowDiscardedAsWritten<T>(table: seq<Instance<T>>, stored: Instance<T>, x: Instance<T>, user: UserId)
    requires KeysDistinct((y: Instance<T>) => y.id, table)
    requires stored in table && x.id == stored.id
    requires StampInstance(x, user) != stored
    ensures stored in SaveFormsetAsWritten(table, [x], user)
    ensures StampInstance(x, user) !in SaveFormsetAsWritten(table, [x], user)
    ensures StampInstance(x, user) in SaveFormset(table, [x], user)
    ensures stored !in SaveFormset(table, [x], user)
  {
    var key := (y: Instance<T>) => y.id;
    assert KeysDistinct(key, [x]);
    var j :| 0 <= j < |table| && table[j] == stored;
    forall k | 0 <= k < |table|
      ensures table[k] != StampInstance(x, user)
    {
      if k < j || j < k {
        assert key(table[k]) != key(table[j]);
      }
    }
    var r := SaveFormset(table, [x], user);
    assert [x][0] == x;
    assert ReplacesSubmitted(r, [x], user);
  }

  /** What the missing save costs: a row added in an inline form is kept by the
      documented behaviour, stamped with the user, and lost as written. */
  lemma {:induction false} NewInlineRowLostAsWritten<T>(table: seq<Instance<T>>, x: Instance<T>, user: UserId)
    requires forall y :: y in table ==> y.id != x.id
    ensures forall y :: y in SaveFormsetAsWritten(table, [x], user) ==> y.id != x.id
    ensures SaveFormset(table, [x], user) == table + [StampInstance(x, user)]
    ensures StampInstance(x, user).audit == Audit(Some(user), Some(user)) || x.audit.createdBy.Some?
  {
    var key := (y: Instance<T>) => y.id;
    assert KeysDistinct(key, [x]);
    assert SaveFormset(table, [x][..0], user) == table;
    assert forall y :: y in table ==> y.id != StampInstance(x, user).id;
  }

  // ---------------------------------------------------------------------------
  // List columns

  /** No group is literally called "-", so a dash can only mean "none". */
  predicate NoGroupNamedDash(cat: Catalog)
  {
    forall resp :: resp in cat.responsibilities ==> resp.group.name != "-"
  }

  /** A display column: the joined names, or "-" when there are none. */
  function JoinOrDash(names: seq<string>): (r: string)
    ensures names == [] ==> r == "-"
    ensures names != [] ==> JoinedBy(", ", names, r)
  {
    if names == [] then "-" else Join(", ", names)
  }

  /** PostalFacilityAdmin.get_current_name. */
  function FacilityCurrentNameDisplay(cat: Catalog, f: PostalFacility): (r: string)
    ensures (forall x :: x in cat.facilityIdentities && x.owner == f.id ==> x.span.to.Some?) ==> r == "-"
    ensures (exists x :: x in cat.facilityIdentities && x.owner == f.id && x.span.to.None?) ==>
      exists x :: IsFirstOpen(FacilityIdentityOrder, cat.facilityIdentities, f.id, x) && r == x.details.name
  {
    match FacilityCurrentIdentity(cat, f.id)
    case Some(x) => x.details.name
    case None => "-"
  }

  /** AdministrativeUnitAdmin.get_current_name. */
  function UnitCurrentNameDisplay(cat: Catalog, u: AdministrativeUnit): (r: string)
    ensures (forall x :: x in cat.unitIdentities && x.owner == u.id ==> x.span.to.Some?) ==> r == "-"
    ensures (exists x :: x in cat.unitIdentities && x.owner == u.id && x.span.to.None?) ==>
      exists x :: IsFirstOpen(UnitIdentityOrder, cat.unitIdentities, u.id, x) && r == x.details.name
  {
    match UnitCurrentIdentity(cat, u.id)
    case Some(x) => x.details.name
    case None => "-"
  }

  /** AdministrativeUnitAdmin.get_current_type. */
  function UnitCurrentTypeDisplay(cat: Catalog, u: AdministrativeUnit): (r: string)
    ensures (forall x :: x in cat.unitIdentities && x.owner == u.id ==> x.span.to.Some?) ==> r == "-"
    ensures (exists x :: x in cat.unitIdentities && x.owner == u.id && x.span.to.None?) ==>
      exists x :: IsFirstOpen(UnitIdentityOrder, cat.unitIdentities, u.id, x) && r == x.details.unitType
  {
    match UnitCurrentIdentity(cat, u.id)
    case Some(x) => x.details.unitType
    case None => "-"
  }

  /** The admin list and the API list serializers show the same current
      identity: the admin prints "-" exactly where the API has null, and the
      same name and type otherwise. */
  lemma CurrentColumnsAgreeWithApi(cat: Catalog, f: PostalFacility, u: AdministrativeUnit)
    ensures FacilityCurrentNameDisplay(cat, f) ==
      (if Serializers.FacilityCurrentName(cat, f).Some? then Serializers.FacilityCurrentName(cat, f).value else "-")
    ensures UnitCurrentNameDisplay(cat, u) ==
      (if Serializers.UnitCurrentName(cat, u).Some? then Serializers.UnitCurrentName(cat, u).value else "-")
    ensures UnitCurrentTypeDisplay(cat, u) ==
      (if Serializers.UnitCurrentType(cat, u).Some? then Serializers.UnitCurrentType(cat, u).value else "-")
  {
  }

  function NamesOf(groups: seq<Group>): (r: seq<string>)
    ensures |r| == |groups|
    ensures forall i :: 0 <= i < |r| ==> r[i] == groups[i].name
  {
    seq(|groups|, i requires 0 <= i < |groups| => groups[i].name)
  }

  /** AdministrativeUnitAdmin.get_responsible_groups: the names of the groups
      with an active responsibility for the unit, or "-". */
  function UnitResponsibleGroupsDisplay(cat: Catalog, u: AdministrativeUnit): (r: string)
    ensures (forall resp :: resp in cat.responsibilities && resp.unit == u.id ==> !resp.isActive) ==> r == "-"
    ensures NoGroupNamedDash(cat) ==>
      (r == "-" <==> forall resp :: resp in cat.responsibilities && resp.unit == u.id ==> !resp.isActive)
    ensures Views.UnitResponsibilities(cat, u.id) != [] ==>
      JoinedBy(", ", NamesOf(GroupsOf(Views.UnitResponsibilities(cat, u.id))), r)
  {
    var active := Views.UnitResponsibilities(cat, u.id);
    var names := NamesOf(GroupsOf(active));
    var r := JoinOrDash(names);
    assert NoGroupNamedDash(cat) && names != [] ==> r != "-" by {
      if NoGroupNamedDash(cat) && names != [] {
        assert active[0] in cat.responsibilities;
        assert names[0] == active[0].group.name;
      }
    }
    assert names == [] <==> active == [];
    r
  }

  /** AdministrativeUnitResponsibilityAdmin.get_unit_name: the unit's current
      name, or its reference code when no identity is open. */
  function ResponsibilityUnitName(cat: Catalog, resp: Responsibility, u: AdministrativeUnit): (r: string)
    requires u.id == resp.unit
    ensures (forall x :: x in cat.unitIdentities && x.owner == u.id ==> x.span.to.Some?) ==> r == u.referenceCode
    ensures (exists x :: x in cat.unitIdentities && x.owner == u.id && x.span.to.None?) ==>
      exists x :: IsFirstOpen(UnitIdentityOrder, cat.unitIdentities, u.id, x) && r == x.details.name
  {
    match UnitCurrentIdentity(cat, resp.unit)
    case Some(x) => x.details.name
    case None => u.referenceCode
  }

  /** The responsibility admin's unit column is the unit part of the
      responsibility's own label. */
  lemma ResponsibilityUnitNameIsLabelTail(cat: Catalog, resp: Responsibility, u: AdministrativeUnit)
    requires u.id == resp.unit
    ensures ResponsibilityLabel(cat, resp, u) == resp.group.name + " → " + ResponsibilityUnitName(cat, resp, u)
  {
  }

  /** JurisdictionalAffiliationAdmin.get_admin_unit_name: the unit's name on the affiliation's start date, or its reference
      code. */
  function AffiliationUnitNameDisplay(cat: Catalog, a: Affiliation, u: AdministrativeUnit): (r: string)
    requires u.id == a.details.unit
    ensures (forall x :: x in cat.unitIdentities && x.owner == u.id ==> !Covers(x.span, a.span.from)) ==> r == u.referenceCode
    ensures (exists x :: x in cat.unitIdentities && x.owner == u.id && Covers(x.span, a.span.from)) ==>
      exists x :: IsFirstCovering(UnitIdentityOrder, cat.unitIdentities, u.id, a.span.from, x) && r == x.details.name
  {
    match AffiliationUnitIdentity(cat, a)
    case Some(x) => x.details.name
    case None => u.referenceCode
  }

  /** PostmarkAdmin.get_admin_unit: the first open affiliation of the postmark's
      facility identity (lowest id, since affiliations have no default
      ordering), shown by its unit's name on the affiliation's start, or "-". */
  function PostmarkAdminUnit(cat: Catalog, pm: Postmark): (r: string)
    ensures (forall a :: a in cat.affiliations && a.owner == pm.facilityIdentity ==> a.span.to.Some?) ==> r == "-"
    ensures r != "-" ==> exists a, x ::
      IsFirstOpen(AffiliationOrder, cat.affiliations, pm.facilityIdentity, a) &&
      IsFirstCovering(UnitIdentityOrder, cat.unitIdentities, a.details.unit, a.span.from, x) && r == x.details.name
    ensures UniqueIds(cat.affiliations) ==> forall a :: IsFirstOpen(AffiliationOrder, cat.affiliations, pm.facilityIdentity, a) ==>
      r == (if Serializers.AffiliationUnitName(cat, a).Some? then Serializers.AffiliationUnitName(cat, a).value else "-")
  {
    var owned := OwnedBy(cat.affiliations, pm.facilityIdentity);
    match Current(AffiliationOrder, owned)
    case None => "-"
    case Some(a) =>
      assert IsFirstOpen(AffiliationOrder, cat.affiliations, pm.facilityIdentity, a) by {
        forall y | y in cat.affiliations && y.owner == pm.facilityIdentity && IsOpen(y.span)
          ensures Precedes(AffiliationOrder, a, y)
        {
          assert y in owned;
        }
      }
      assert UniqueIds(cat.affiliations) ==>
        forall b :: IsFirstOpen(AffiliationOrder, cat.affiliations, pm.facilityIdentity, b) ==> b == a
      by {
        forall b | UniqueIds(cat.affiliations) && IsFirstOpen(AffiliationOrder, cat.affiliations, pm.facilityIdentity, b)
          ensures b == a
        {
          LowestIdFirstIsUnique(cat.affiliations, pm.facilityIdentity, a, b);
        }
      }
      match AffiliationUnitIdentity(cat, a)
      case Some(x) => x.details.name
      case None => "-"
  }

  /** The responsible-groups column lists, in order, the names the API's
      `responsible_groups` field lists for the postmark. */
  lemma GroupsColumnListsApiGroups(cat: Catalog, pm: Postmark, now: Instant)
    ensures var field := Serializers.ResponsibleGroupsField(cat, pm, now);
      && (field == [] ==> PostmarkResponsibleGroupsDisplay(cat, pm, now) == "-")
      && (field != [] ==> JoinedBy(", ", seq(|field|, i requires 0 <= i < |field| => field[i].name),
                                   PostmarkResponsibleGroupsDisplay(cat, pm, now)))
  {
    var field := Serializers.ResponsibleGroupsField(cat, pm, now);
    var names := seq(|field|, i requires 0 <= i < |field| => field[i].name);
    assert names == NamesOf(ResponsibleGroups(cat, pm, now));
  }

  /** The admin column and the permission rule read affiliations differently:
      an affiliation already given an end date that has not yet passed still
      makes its unit's groups responsible, but the column shows only open
      affiliations and prints "-". */
  lemma AdminUnitHidesClosingAffiliation()
    ensures var cat := Catalog(
        [], [], [], [Dated(1, 5, Interval(20250101, None), UnitDetails(None, "Ohio", "OH", "state", 1, ""))],
        [Responsibility(1, 5, Group(3, "ohio-editors"), true)],
        [Dated(2, 9, Interval(20250101, Some(20251231)), AffiliationDetails(5, ""))],
        [], [], [], []);
      var pm := Postmark(1, 9, "k", "", "");
      PostmarkAdminUnit(cat, pm) == "-" &&
      ResponsibleGroups(cat, pm, Instant(20250531, 0)) == [Group(3, "ohio-editors")]
  {
    var cat := Catalog(
        [], [], [], [Dated(1, 5, Interval(20250101, None), UnitDetails(None, "Ohio", "OH", "state", 1, ""))],
        [Responsibility(1, 5, Group(3, "ohio-editors"), true)],
        [Dated(2, 9, Interval(20250101, Some(20251231)), AffiliationDetails(5, ""))],
        [], [], [], []);
    var pm := Postmark(1, 9, "k", "", "");
    var now := Instant(20250531, 0);
    assert GovernedBy(cat, 9, 5, now) by {
      assert cat.affiliations[0] in cat.affiliations;
    }
    FilterAll((resp: Responsibility) => Responsible(cat, pm, now, resp), cat.responsibilities);
  }

  /** PostmarkAdmin.get_responsible_groups: the names of the postmark's
      responsible groups, or "-". */
  function PostmarkResponsibleGroupsDisplay(cat: Catalog, pm: Postmark, now: Instant): (r: string)
    ensures (forall resp :: resp in cat.responsibilities ==> !Responsible(cat, pm, now, resp)) ==> r == "-"
    ensures |ResponsibleGroups(cat, pm, now)| == 1 ==> r == ResponsibleGroups(cat, pm, now)[0].name
    ensures NoGroupNamedDash(cat) ==>
      (r == "-" <==> forall resp :: resp in cat.responsibilities ==> !Responsible(cat, pm, now, resp))
    ensures ResponsibleGroups(cat, pm, now) != [] ==> JoinedBy(", ", NamesOf(ResponsibleGroups(cat, pm, now)), r)
  {
    var groups := ResponsibleGroups(cat, pm, now);
    var names := NamesOf(groups);
    var r := JoinOrDash(names);
    assert NoGroupNamedDash(cat) && names != [] ==> r != "-" by {
      if NoGroupNamedDash(cat) && names != [] {
        assert groups[0] in groups;
        assert names[0] == groups[0].name;
      }
    }
    assert names == [] <==> groups == [];
    r
  }
}

=== FILE: base.dfy ===
/**
 Small shared vocabulary: an option type for nullable columns and "no row"
 results, order-preserving filtering of query results, counting, and the
 string operations the catalog's lookups and displays use.
 */
module Base {

  /** A nullable column, or the absence of a row (Django's `None`). */
  datatype Option<+T> = None | Some(value: T)

  /** Keeps the elements satisfying `p`, in their original order (a WHERE clause). */
  function Filter<T(!new)>(p: T -> bool, xs: seq<T>): (r: seq<T>)
    ensures |r| <= |xs|
    ensures forall x :: x in r <==> x in xs && p(x)
    ensures forall i :: 0 <= i < |r| ==> p(r[i])
    decreases |xs|
  {
    if |xs| == 0 then []
    else (if p(xs[0]) then [xs[0]] else []) + Filter(p, xs[1..])
  }

  /** Number of elements satisfying `p` (an SQL COUNT over a WHERE clause). */
  function Count<T(!new)>(p: T -> bool, xs: seq<T>): (n: nat)
    ensures n <= |xs|
    ensures n == 0 <==> forall x :: x in xs ==> !p(x)
    decreases |xs|
  {
    if |xs| == 0 then 0
    else (if p(xs[0]) then 1 else 0) + Count(p, xs[1..])
  }

  /** Filtering keeps exactly as many elements as it counts. */
  lemma {:induction false} FilterLength<T(!new)>(p: T -> bool, xs: seq<T>)
    ensures |Filter(p, xs)| == Count(p, xs)
    decreases |xs|
  {
    if |xs| > 0 {
      FilterLength(p, xs[1..]);
    }
  }

  /** Two predicates that agree on every element select the same subsequence. */
  lemma {:induction false} FilterCongruent<T(!new)>(p: T -> bool, q: T -> bool, xs: seq<T>)
    requires forall x :: x in xs ==> (p(x) <==> q(x))
    ensures Filter(p, xs) == Filter(q, xs)
    decreases |xs|
  {
    if |xs| > 0 {
      assert forall x :: x in xs[1..] ==> x in xs;
      FilterCongruent(p, q, xs[1..]);
    }
  }

  /** A filter whose predicate holds everywhere returns its input unchanged. */
  lemma {:induction false} FilterAll<T(!new)>(p: T -> bool, xs: seq<T>)
    requires forall x :: x in xs ==> p(x)
    ensures Filter(p, xs) == xs
    decreases |xs|
  {
    if |xs| > 0 {
      assert forall x :: x in xs[1..] ==> x in xs;
      FilterAll(p, xs[1..]);
      assert xs == [xs[0]] + xs[1..];
    }
  }

  /** Complementary filters split the input: every element lands in exactly one part. */
  lemma {:induction false} FilterComplementLength<T(!new)>(p: T -> bool, q: T -> bool, xs: seq<T>)
    requires forall x :: x in xs ==> (q(x) <==> !p(x))
    ensures |Filter(p, xs)| + |Filter(q, xs)| == |xs|
    decreases |xs|
  {
    if |xs| > 0 {
      assert forall x :: x in xs[1..] ==> x in xs;
      FilterComplementLength(p, q, xs[1..]);
    }
  }

  /** No two positions of `xs` carry the same key (a UNIQUE constraint). */
  predicate KeysDistinct<T, K(==)>(key: T -> K, xs: seq<T>)
  {
    forall i, j :: 0 <= i < j < |xs| ==> key(xs[i]) != key(xs[j])
  }

  /** Filtering a table cannot break a uniqueness constraint. */
  lemma {:induction false} FilterKeepsKeysDistinct<T(!new), K>(p: T -> bool, key: T -> K, xs: seq<T>)
    requires KeysDistinct(key, xs)
    ensures KeysDistinct(key, Filter(p, xs))
    decreases |xs|
  {
    if |xs| > 0 {
      var tail := xs[1..];
      assert KeysDistinct(key, tail) by {
        forall i, j | 0 <= i < j < |tail|
          ensures key(tail[i]) != key(tail[j])
        {
          assert tail[i] == xs[i + 1] && tail[j] == xs[j + 1];
        }
      }
      FilterKeepsKeysDistinct(p, key, tail);
      var rest := Filter(p, tail);
      forall y | y in rest
        ensures key(y) != key(xs[0])
      {
        var k :| 0 <= k < |tail| && tail[k] == y;
        assert xs[k + 1] == y;
      }
    }
  }

  // ---------------------------------------------------------------------------
  // Strings

  /** ASCII case folding (upper-case letters to lower case). */
  function FoldChar(c: char): (r: char)
    ensures 'A' <= c <= 'Z' ==> 'a' <= r <= 'z' && r as int - c as int == 32
    ensures !('A' <= c <= 'Z') ==> r == c
  {
    if 'A' <= c <= 'Z' then (c as int + 32) as char else c
  }

  function Fold(s: string): (r: string)
    ensures |r| == |s|
    ensures forall i :: 0 <= i < |s| ==> r[i] == FoldChar(s[i])
  {
    seq(|s|, i requires 0 <= i < |s| => FoldChar(s[i]))
  }

  /** `haystack` contains `needle` ignoring case (Django's `icontains`). */
  predicate ContainsIgnoringCase(haystack: string, needle: string)
  {
    exists i | 0 <= i <= |haystack| - |needle| :: OccursAt(haystack, needle, i)
  }

  /** `needle` occurs in `haystack` at offset `i`, ignoring case. */
  predicate OccursAt(haystack: string, needle: string, i: int)
  {
    0 <= i <= |haystack| - |needle| && Fold(haystack)[i..i + |needle|] == Fold(needle)
  }

  /** `a` equals `b` ignoring case (Django's `iexact`). */
  predicate EqualsIgnoringCase(a: string, b: string)
  {
    Fold(a) == Fold(b)
  }

  /** Where the `i`-th part starts once `parts` are joined by `sep`. */
  function Offset(sep: string, parts: seq<string>, i: nat): nat
    requires i <= |parts|
  {
    if i == 0 then 0 else Offset(sep, parts, i - 1) + |parts[i - 1]| + |sep|
  }

  /** Part `i` stands at its offset in `r`. */
  ghost predicate PartAt(sep: string, parts: seq<string>, r: string, i: nat)
    requires i < |parts|
  {
    Offset(sep, parts, i) + |parts[i]| <= |r| &&
    r[Offset(sep, parts, i)..Offset(sep, parts, i) + |parts[i]|] == parts[i]
  }

  /** A separator follows part `i` in `r`. */
  ghost predicate SepAfter(sep: string, parts: seq<string>, r: string, i: nat)
    requires i < |parts|
  {
    Offset(sep, parts, i) + |parts[i]| + |sep| <= |r| &&
    r[Offset(sep, parts, i) + |parts[i]|..Offset(sep, parts, i) + |parts[i]| + |sep|] == sep
  }

  /** `r` is the non-empty list `parts` written out with `sep` between
      neighbours: every part and every separator stands at its offset, and
      the text ends with the last part. */
  ghost predicate JoinedBy(sep: string, parts: seq<string>, r: string)
  {
    && |parts| >= 1
    && |r| + |sep| == Offset(sep, parts, |parts|)
    && (forall i :: 0 <= i < |parts| ==> PartAt(sep, parts, r, i))
    && (forall i :: 0 <= i < |parts| - 1 ==> SepAfter(sep, parts, r, i))
  }

  /** Dropping the first part moves every later offset back by that part and one separator. */
  lemma {:induction false} OffsetShift(sep: string, parts: seq<string>, i: nat)
    requires 1 <= i <= |parts|
    ensures Offset(sep, parts, i) == |parts[0]| + |sep| + Offset(sep, parts[1..], i - 1)
  {
    if i > 1 {
      OffsetShift(sep, parts, i - 1);
    }
  }

  /** Behind a first part and a separator, part `i` and the separator after
      it stand where part `i - 1` of the tail and its separator stand in the rest. */
  lemma PlacementShift(sep: string, parts: seq<string>, rest: string, i: nat)
    requires 1 <= i < |parts|
    ensures PartAt(sep, parts, parts[0] + sep + rest, i) <==> PartAt(sep, parts[1..], rest, i - 1)
    ensures SepAfter(sep, parts, parts[0] + sep + rest, i) <==> SepAfter(sep, parts[1..], rest, i - 1)
  {
    var r := parts[0] + sep + rest;
    var L := |parts[0]| + |sep|;
    var tail := parts[1..];
    OffsetShift(sep, parts, i);
    var o := Offset(sep, tail, i - 1);
    var k := |parts[i]|;
    assert tail[i - 1] == parts[i];
    if o + k <= |rest| {
      assert r[L + o..L + o + k] == rest[o..o + k];
    }
    if o + k + |sep| <= |rest| {
      assert r[L + o + k..L + o + k + |sep|] == rest[o + k..o + k + |sep|];
    }
  }

  /** Writing a part and a separator in front of a joined tail joins the whole list. */
  lemma JoinedByCons(sep: string, parts: seq<string>, rest: string)
    requires |parts| >= 2
    requires JoinedBy(sep, parts[1..], rest)
    ensures JoinedBy(sep, parts, parts[0] + sep + rest)
  {
    var r := parts[0] + sep + rest;
    OffsetShift(sep, parts, |parts|);
    forall i | 0 <= i < |parts|
      ensures PartAt(sep, parts, r, i)
    {
      if i == 0 {
        assert r[..|parts[0]|] == parts[0];
      } else {
        PlacementShift(sep, parts, rest, i);
      }
    }
    forall i | 0 <= i < |parts| - 1
      ensures SepAfter(sep, parts, r, i)
    {
      if i == 0 {
        assert r[|parts[0]|..|parts[0]| + |sep|] == sep;
      } else {
        PlacementShift(sep, parts, rest, i);
      }
    }
  }

  /** The converse: a joined list of two or more parts is its first part, a
      separator, and the joined tail. */
  lemma JoinedByUncons(sep: string, parts: seq<string>, r: string)
    requires |parts| >= 2
    requires JoinedBy(sep, parts, r)
    ensures |parts[0]| + |sep| <= |r|
    ensures r == parts[0] + sep + r[|parts[0]| + |sep|..]
    ensures JoinedBy(sep, parts[1..], r[|parts[0]| + |sep|..])
  {
    var L := |parts[0]| + |sep|;
    assert PartAt(sep, parts, r, 0) && SepAfter(sep, parts, r, 0);
    var rest := r[L..];
    assert r == r[..|parts[0]|] + r[|parts[0]|..L] + rest;
    OffsetShift(sep, parts, |parts|);
    forall j | 0 <= j < |parts| - 1
      ensures PartAt(sep, parts[1..], rest, j)
    {
      assert PartAt(sep, parts, r, j + 1);
      PlacementShift(sep, parts, rest, j + 1);
    }
    forall j | 0 <= j < |parts| - 2
      ensures SepAfter(sep, parts[1..], rest, j)
    {
      assert SepAfter(sep, parts, r, j + 1);
      PlacementShift(sep, parts, rest, j + 1);
    }
  }

  /** Python's `sep.join(parts)`: the parts in order with `sep` between neighbours. */
  function Join(sep: string, parts: seq<string>): (r: string)
    ensures |parts| == 0 ==> r == ""
    ensures |parts| >= 1 ==> JoinedBy(sep, parts, r)
    decreases |parts|
  {
    if |parts| == 0 then ""
    else if |parts| == 1 then parts[0]
    else
      var rest := Join(sep, parts[1..]);
      JoinedByCons(sep, parts, rest);
      parts[0] + sep + rest
  }

  /** JoinedBy pins the text down completely: the joined text is the only one. */
  lemma {:induction false} JoinedByIsJoin(sep: string, parts: seq<string>, r: string)
    ensures JoinedBy(sep, parts, r) <==> |parts| >= 1 && r == Join(sep, parts)
    decreases |parts|
  {
    if JoinedBy(sep, parts, r) {
      if |parts| == 1 {
        assert PartAt(sep, parts, r, 0);
        assert r == r[0..|parts[0]|];
      } else {
        JoinedByUncons(sep, parts, r);
        JoinedByIsJoin(sep, parts[1..], r[|parts[0]| + |sep|..]);
      }
    }
  }
}

=== FILE: filters.dfy ===
/**
 The custom filter methods of the list endpoints (common/filters.py):
 free-text postmark search, the "currently in this state" filters, the
 has-images and has-coordinates switches and the postmark-count bounds on
 covers. A filter takes the incoming queryset (a sequence of rows) and keeps
 a subsequence of it.

 The two state filters look units up by `unit_abbreviation` and `unit_name`,
 which AdministrativeUnit does not have (they live on its identities), so
 Django rejects the lookup for every non-empty value. Both the behaviour as
 written and the evidently intended lookup through the unit's identities are
 modelled; the rest of the model uses the latter.
 */
module Filters {
  import opened Base
  import opened Temporal
  import opened Models

  /** A filter that either narrows the queryset or fails while building the query. */
  datatype Outcome<T> = Rows(rows: seq<T>) | FieldError(message: string)

  // ---------------------------------------------------------------------------
  // Postmark search

  /** The postmark's facility identity is named something containing `value`. */
  predicate FacilityNameContains(cat: Catalog, pm: Postmark, value: string)
  {
    exists fi :: fi in cat.facilityIdentities && fi.id == pm.facilityIdentity && ContainsIgnoringCase(fi.details.name, value)
  }

  predicate MatchesQuery(cat: Catalog, pm: Postmark, value: string)
  {
    ContainsIgnoringCase(pm.key, value) || FacilityNameContains(cat, pm, value) ||
    ContainsIgnoringCase(pm.rateValue, value) || ContainsIgnoringCase(pm.otherCharacteristics, value)
  }

  /** PostmarkFilter.filter_q: an empty value keeps everything; otherwise keep
      the postmarks whose key, facility name, rate or other characteristics
      contain the value, ignoring case. */
  function FilterQ(cat: Catalog, pms: seq<Postmark>, value: string): (r: seq<Postmark>)
    ensures value == "" ==> r == pms
    ensures value != "" ==> forall pm :: pm in r <==> (pm in pms && (
      ContainsIgnoringCase(pm.key, value) || FacilityNameContains(cat, pm, value) ||
      ContainsIgnoringCase(pm.rateValue, value) || ContainsIgnoringCase(pm.otherCharacteristics, value)))
    ensures |r| <= |pms|
  {
    if value == "" then pms else Filter((pm: Postmark) => MatchesQuery(cat, pm, value), pms)
  }

  /** Searching the result of a search again changes nothing. */
  lemma {:induction false} FilterQIdempotent(cat: Catalog, pms: seq<Postmark>, value: string)
    ensures FilterQ(cat, FilterQ(cat, pms, value), value) == FilterQ(cat, pms, value)
  {
    if value != "" {
      var p := (pm: Postmark) => MatchesQuery(cat, pm, value);
      FilterAll(p, Filter(p, pms));
    }
  }

  /** The key itself is always found, whatever its case. */
  lemma KeyFindsItsPostmark(cat: Catalog, pms: seq<Postmark>, pm: Postmark)
    requires pm in pms && pm.key != ""
    ensures pm in FilterQ(cat, pms, pm.key)
  {
    assert OccursAt(pm.key, pm.key, 0);
  }

  // ---------------------------------------------------------------------------
  // State filters

  /** The affiliation is current on `today`: started, and not yet ended. This
      is the half-open rule of identity resolution. */
  predicate CurrentOn(a: Affiliation, today: Date)
  {
    a.span.from <= today && (a.span.to.None? || a.span.to.value > today)
  }

  lemma CurrentOnIsCovers(a: Affiliation, today: Date)
    ensures CurrentOn(a, today) <==> Covers(a.span, today)
  {
  }

  /** An identity of the unit carries `value` as abbreviation (exactly,
      ignoring case) or inside its name. */
  predicate UnitIdentityMatches(x: UnitIdentity, value: string)
  {
    EqualsIgnoringCase(x.details.abbreviation, value) || ContainsIgnoringCase(x.details.name, value)
  }

  predicate UnitMatches(cat: Catalog, unit: nat, value: string)
  {
    exists x :: x in cat.unitIdentities && x.owner == unit && UnitIdentityMatches(x, value)
  }

  /** Some unit of the catalog matches `value`. */
  predicate AnyUnitMatches(cat: Catalog, value: string)
  {
    exists x :: x in cat.unitIdentities && UnitIdentityMatches(x, value)
  }

  /** The facility identity is currently affiliated with a matching unit. */
  predicate CurrentlyIn(cat: Catalog, facilityIdentity: nat, value: string, today: Date)
  {
    exists a :: a in cat.affiliations && a.owner == facilityIdentity && CurrentOn(a, today) &&
      UnitMatches(cat, a.details.unit, value)
  }

  const UnknownUnitFields := "Cannot resolve keyword 'unit_abbreviation' into field."

  /** PostmarkFilter.filter_by_state as written: the unit lookup names fields
      AdministrativeUnit lacks, so every non-empty value fails. */
  function FilterByStateAsWritten(pms: seq<Postmark>, value: string): (r: Outcome<Postmark>)
    ensures value == "" ==> r == Rows(pms)
    ensures value != "" ==> r.FieldError?
  {
    if value == "" then Rows(pms) else FieldError(UnknownUnitFields)
  }

  /** PostmarkFilter.filter_by_state with the unit lookup going through the
      unit's identities: the postmarks whose facility identity is currently
      affiliated with a unit matching `value`; nothing when no unit matches. */
  function FilterByState(cat: Catalog, pms: seq<Postmark>, value: string, today: Date): (r: seq<Postmark>)
    ensures value == "" ==> r == pms
    ensures value != "" && !AnyUnitMatches(cat, value) ==> r == []
    ensures value != "" ==> forall pm :: pm in r <==> pm in pms && CurrentlyIn(cat, pm.facilityIdentity, value, today)
  {
    if value == "" then pms
    else if !AnyUnitMatches(cat, value) then []
    else Filter((pm: Postmark) => CurrentlyIn(cat, pm.facilityIdentity, value, today), pms)
  }

  /** GeographicLocationFilter.filter_by_current_state as written: fails for
      every non-empty value, like filter_by_state. */
  function FilterByCurrentStateAsWritten(fis: seq<FacilityIdentity>, value: string): (r: Outcome<FacilityIdentity>)
    ensures value == "" ==> r == Rows(fis)
    ensures value != "" ==> r.FieldError?
  {
    if value == "" then Rows(fis) else FieldError(UnknownUnitFields)
  }

  /** GeographicLocationFilter.filter_by_current_state with the corrected unit
      lookup: the facility identities currently affiliated with a matching unit. */
  function FilterByCurrentState(cat: Catalog, fis: seq<FacilityIdentity>, value: string, today: Date): (r: seq<FacilityIdentity>)
    ensures value == "" ==> r == fis
    ensures value != "" && !AnyUnitMatches(cat, value) ==> r == []
    ensures value != "" ==> forall fi :: fi in r <==> fi in fis && CurrentlyIn(cat, fi.id, value, today)
  {
    if value == "" then fis
    else if !AnyUnitMatches(cat, value) then []
    else Filter((fi: FacilityIdentity) => CurrentlyIn(cat, fi.id, value, today), fis)
  }

  /** The two state filters agree: a postmark is kept exactly when its facility
      identity would be kept. */
  lemma StateFiltersAgree(cat: Catalog, pm: Postmark, fi: FacilityIdentity, value: string, today: Date)
    requires pm.facilityIdentity == fi.id
    requires value != ""
    ensures pm in FilterByState(cat, [pm], value, today) <==> fi in FilterByCurrentState(cat, [fi], value, today)
  {
  }

  /** A scenario in which the corrected filter finds a postmark that the
      filter as written rejects with an error: Virginia, abbreviated "VA". */
  lemma FilterByStateFindsWhatAsWrittenRejects()
    ensures
      var va := Dated(1, 20, Interval(17880625, None), UnitDetails(None, "Virginia", "VA", "STATE", 1, ""));
      var aff := Dated(1, 4, Interval(18600101, None), AffiliationDetails(20, "Organic Act"));
      var pm := Postmark(1, 4, "RICH-1", "3", "");
      var cat := Catalog([], [], [], [va], [], [aff], [pm], [], [], []);
      FilterByState(cat, [pm], "va", 20250101) == [pm] &&
      FilterByStateAsWritten([pm], "va").FieldError?
  {
    var va := Dated(1, 20, Interval(17880625, None), UnitDetails(None, "Virginia", "VA", "STATE", 1, ""));
    var aff := Dated(1, 4, Interval(18600101, None), AffiliationDetails(20, "Organic Act"));
    var pm := Postmark(1, 4, "RICH-1", "3", "");
    var cat := Catalog([], [], [], [va], [], [aff], [pm], [], [], []);
    assert Fold("VA") == "va" && Fold("va") == "va";
    assert UnitIdentityMatches(va, "va");
    assert va in cat.unitIdentities && UnitMatches(cat, 20, "va");
    assert aff in cat.affiliations && CurrentlyIn(cat, 4, "va", 20250101);
    FilterAll((p: Postmark) => CurrentlyIn(cat, p.facilityIdentity, "va", 20250101), [pm]);
  }

  // ---------------------------------------------------------------------------
  // Presence switches

  predicate HasImages(cat: Catalog, pm: Postmark)
  {
    exists img :: img in cat.postmarkImages && img.postmark == pm.id
  }

  /** PostmarkFilter.filter_has_images: None keeps everything, true the
      postmarks with an image, false those without. */
  function FilterHasImages(cat: Catalog, pms: seq<Postmark>, value: Option<bool>): (r: seq<Postmark>)
    ensures value.None? ==> r == pms
    ensures value == Some(true) ==> forall pm :: pm in r <==> pm in pms && HasImages(cat, pm)
    ensures value == Some(false) ==> forall pm :: pm in r <==> pm in pms && !HasImages(cat, pm)
  {
    match value
    case None => pms
    case Some(want) => Filter((pm: Postmark) => HasImages(cat, pm) == want, pms)
  }

  /** The true and false results split the input: together as long as it, and
      sharing no postmark. */
  lemma FilterHasImagesPartitions(cat: Catalog, pms: seq<Postmark>)
    ensures |FilterHasImages(cat, pms, Some(true))| + |FilterHasImages(cat, pms, Some(false))| == |pms|
    ensures forall pm :: !(pm in FilterHasImages(cat, pms, Some(true)) && pm in FilterHasImages(cat, pms, Some(false)))
  {
    FilterComplementLength((pm: Postmark) => HasImages(cat, pm) == true,
                           (pm: Postmark) => HasImages(cat, pm) == false, pms);
  }

  /** The stable facility of a facility identity (a foreign-key join). */
  function FacilityOf(cat: Catalog, fi: FacilityIdentity): (r: Option<PostalFacility>)
    ensures r.Some? ==> r.value in cat.facilities && r.value.id == fi.owner
    ensures r.None? <==> forall f :: f in cat.facilities ==> f.id != fi.owner
  {
    var i := IndexOfFacility(cat.facilities, fi.owner);
    if i < |cat.facilities| then Some(cat.facilities[i]) else None
  }

  /** The position of the first facility with id `id`, or |fs|. */
  function IndexOfFacility(fs: seq<PostalFacility>, id: nat): (i: nat)
    ensures i <= |fs|
    ensures i < |fs| ==> fs[i].id == id
    ensures forall k :: 0 <= k < i ==> fs[k].id != id
    decreases |fs|
  {
    if |fs| == 0 then 0
    else if fs[0].id == id then 0
    else 1 + IndexOfFacility(fs[1..], id)
  }

  predicate FacilityHasCoordinates(cat: Catalog, fi: FacilityIdentity)
  {
    var f := FacilityOf(cat, fi);
    f.Some? && f.value.latitude.Some? && f.value.longitude.Some?
  }

  predicate FacilityLacksCoordinates(cat: Catalog, fi: FacilityIdentity)
  {
    var f := FacilityOf(cat, fi);
    f.Some? && (f.value.latitude.None? || f.value.longitude.None?)
  }

  /** GeographicLocationFilter.filter_has_coordinates: None keeps everything,
      true the identities whose stable facility has both coordinates (zero
      counts as present), false those whose facility misses either one. The
      identity's own override is not consulted. */
  function FilterHasCoordinates(cat: Catalog, fis: seq<FacilityIdentity>, value: Option<bool>): (r: seq<FacilityIdentity>)
    ensures value.None? ==> r == fis
    ensures value == Some(true) ==> forall fi :: fi in r <==> (fi in fis &&
      exists f :: f in cat.facilities && f.id == fi.owner && f.latitude.Some? && f.longitude.Some? &&
        FacilityOf(cat, fi) == Some(f))
    ensures value == Some(false) ==> forall fi :: fi in r <==> (fi in fis &&
      exists f :: f in cat.facilities && f.id == fi.owner && (f.latitude.None? || f.longitude.None?) &&
        FacilityOf(cat, fi) == Some(f))
  {
    match value
    case None => fis
    case Some(true) => Filter((fi: FacilityIdentity) => FacilityHasCoordinates(cat, fi), fis)
    case Some(false) => Filter((fi: FacilityIdentity) => FacilityLacksCoordinates(cat, fi), fis)
  }

  /** When every identity's facility exists, the true and false results are
      complementary: they split the input. */
  lemma FilterHasCoordinatesComplementary(cat: Catalog, fis: seq<FacilityIdentity>)
    requires forall fi :: fi in fis ==> exists f :: f in cat.facilities && f.id == fi.owner
    ensures |FilterHasCoordinates(cat, fis, Some(true))| + |FilterHasCoordinates(cat, fis, Some(false))| == |fis|
    ensures forall fi :: fi in fis ==>
      (fi in FilterHasCoordinates(cat, fis, Some(true)) <==> fi !in FilterHasCoordinates(cat, fis, Some(false)))
  {
    assert forall fi :: fi in fis ==> FacilityOf(cat, fi).Some?;
    FilterComplementLength((fi: FacilityIdentity) => FacilityHasCoordinates(cat, fi),
                           (fi: FacilityIdentity) => FacilityLacksCoordinates(cat, fi), fis);
  }

  // ---------------------------------------------------------------------------
  // Postmark count on covers

  /** The number of postmarks placed on the cover (a COUNT over the join). */
  function PostmarkCount(cat: Catalog, cover: Postcover): (n: nat)
    ensures n <= |cat.postcoverPostmarks|
    ensures n == 0 <==> forall pp :: pp in cat.postcoverPostmarks ==> pp.postcover != cover.id
    ensures n == |Filter((pp: PostcoverPostmark) => pp.postcover == cover.id, cat.postcoverPostmarks)|
  {
    var p := (pp: PostcoverPostmark) => pp.postcover == cover.id;
    FilterLength(p, cat.postcoverPostmarks);
    Count(p, cat.postcoverPostmarks)
  }

  /** PostcoverFilter.filter_postmark_count_min: covers with at least `value` postmarks. */
  function FilterPostmarkCountMin(cat: Catalog, covers: seq<Postcover>, value: int): (r: seq<Postcover>)
    ensures forall c :: c in r <==> c in covers && PostmarkCount(cat, c) >= value
    ensures value <= 0 ==> r == covers
  {
    var p := (c: Postcover) => PostmarkCount(cat, c) >= value;
    assert value <= 0 ==> Filter(p, covers) == covers by {
      if value <= 0 {
        FilterAll(p, covers);
      }
    }
    Filter(p, covers)
  }

  /** PostcoverFilter.filter_postmark_count_max: covers with at most `value` postmarks. */
  function FilterPostmarkCountMax(cat: Catalog, covers: seq<Postcover>, value: int): (r: seq<Postcover>)
    ensures forall c :: c in r <==> c in covers && PostmarkCount(cat, c) <= value
    ensures value < 0 ==> r == []
  {
    var p := (c: Postcover) => PostmarkCount(cat, c) <= value;
    FilterLength(p, covers);
    Filter(p, covers)
  }

  /** A minimum of `v` and a maximum of `v - 1` split the covers between them. */
  lemma PostmarkCountBoundsPartition(cat: Catalog, covers: seq<Postcover>, v: int)
    ensures |FilterPostmarkCountMin(cat, covers, v)| + |FilterPostmarkCountMax(cat, covers, v - 1)| == |covers|
  {
    FilterComplementLength((c: Postcover) => PostmarkCount(cat, c) >= v,
                           (c: Postcover) => PostmarkCount(cat, c) <= v - 1, covers);
  }

  /** Applying both bounds keeps the covers whose count lies in [lo, hi]. */
  lemma PostmarkCountRange(cat: Catalog, covers: seq<Postcover>, lo: int, hi: int)
    ensures forall c :: c in FilterPostmarkCountMax(cat, FilterPostmarkCountMin(cat, covers, lo), hi) <==>
      c in covers && lo <= PostmarkCount(cat, c) <= hi
  {
  }
}

=== FILE: models.dfy ===
/**
 The catalog's data model and the resolution logic attached to it
 (common/models.py): stable containers (postal facilities, administrative
 units) that own time-sliced identities, jurisdictional affiliations from a
 facility identity to a unit, group responsibilities for units, and the
 postmark and postcover rows the endpoints select from.

 A `Catalog` is an in-memory snapshot of the tables; a query is a filter
 over one of its sequences and a join is an `exists` over another.
 */
module Models {
  import opened Base
  import opened Temporal

  /** A coordinate, as a Decimal(10,7) scaled to an integer. */
  type Coordinate = int
  type UserId = nat
  type GroupId = nat

  /** The audit columns every table carries (TimestampedModel). */
  datatype Audit = Audit(createdBy: Option<UserId>, modifiedBy: Option<UserId>)

  datatype PostalFacility = PostalFacility(
    id: nat,
    referenceCode: string,
    latitude: Option<Coordinate>,
    longitude: Option<Coordinate>)

  datatype FacilityDetails = FacilityDetails(
    name: string,
    facilityType: string,
    isOperational: bool,
    discontinuationReason: string,
    latitude: Option<Coordinate>,    // override if the facility moved
    longitude: Option<Coordinate>,
    notes: string)

  /** A facility identity; its `owner` is the postal facility's id. */
  type FacilityIdentity = Dated<FacilityDetails>

  datatype AdministrativeUnit = AdministrativeUnit(id: nat, referenceCode: string)

  datatype UnitDetails = UnitDetails(
    parent: Option<nat>,
    name: string,
    abbreviation: string,
    unitType: string,
    hierarchyLevel: int,
    changeReason: string)

  /** A unit identity; its `owner` is the administrative unit's id. */
  type UnitIdentity = Dated<UnitDetails>

  datatype Group = Group(id: GroupId, name: string)

  datatype Responsibility = Responsibility(id: nat, unit: nat, group: Group, isActive: bool)

  datatype AffiliationDetails = AffiliationDetails(unit: nat, source: string)

  /** A jurisdictional affiliation; its `owner` is the facility identity's id. */
  type Affiliation = Dated<AffiliationDetails>

  datatype Postmark = Postmark(
    id: nat,
    facilityIdentity: nat,
    key: string,
    rateValue: string,
    otherCharacteristics: string)

  datatype PostmarkImage = PostmarkImage(id: nat, postmark: nat, storageFilename: string)

  datatype Postcover = Postcover(id: nat, owner: UserId, key: string)

  datatype PostcoverImage = PostcoverImage(id: nat, postcover: nat, storageFilename: string)

  datatype PostcoverPostmark = PostcoverPostmark(id: nat, postcover: nat, postmark: nat, positionOrder: int)

  datatype Catalog = Catalog(
    facilities: seq<PostalFacility>,
    facilityIdentities: seq<FacilityIdentity>,
    units: seq<AdministrativeUnit>,
    unitIdentities: seq<UnitIdentity>,
    responsibilities: seq<Responsibility>,
    affiliations: seq<Affiliation>,
    postmarks: seq<Postmark>,
    postmarkImages: seq<PostmarkImage>,
    postcovers: seq<Postcover>,
    postcoverPostmarks: seq<PostcoverPostmark>)

  /** Facility identities are ordered by ascending start date. */
  const FacilityIdentityOrder := EarliestStartFirst
  /** Unit identities are ordered by descending start date. */
  const UnitIdentityOrder := LatestStartFirst
  /** Affiliations have no ordering; `.first()` falls back to the primary key. */
  const AffiliationOrder := LowestIdFirst

  // ---------------------------------------------------------------------------
  // Database constraints

  predicate UniqueIds<T>(xs: seq<Dated<T>>)
  {
    forall i, j :: 0 <= i < j < |xs| ==> xs[i].id != xs[j].id
  }

  /** With unique primary keys, `.first()` by id has a single candidate among
      a container's open rows. */
  lemma LowestIdFirstIsUnique<T>(xs: seq<Dated<T>>, owner: nat, a: Dated<T>, b: Dated<T>)
    requires UniqueIds(xs)
    requires IsFirstOpen(LowestIdFirst, xs, owner, a) && IsFirstOpen(LowestIdFirst, xs, owner, b)
    ensures a == b
  {
    var i :| 0 <= i < |xs| && xs[i] == a;
    var j :| 0 <= j < |xs| && xs[j] == b;
    assert a.id == b.id;
    assert !(i < j) && !(j < i);
  }

  /** With unique primary keys, the affiliation `.first()` picks among a
      facility identity's open affiliations is its lowest-id open one. */
  lemma CurrentAffiliationIsFirstOpen(cat: Catalog, fi: nat, a: Affiliation)
    requires UniqueIds(cat.affiliations)
    requires IsFirstOpen(AffiliationOrder, cat.affiliations, fi, a)
    ensures Current(AffiliationOrder, OwnedBy(cat.affiliations, fi)) == Some(a)
  {
    var owned := OwnedBy(cat.affiliations, fi);
    assert a in owned;
    var c := Current(AffiliationOrder, owned).value;
    assert IsFirstOpen(AffiliationOrder, cat.affiliations, fi, c) by {
      forall y | y in cat.affiliations && y.owner == fi && IsOpen(y.span)
        ensures Precedes(AffiliationOrder, c, y)
      {
        assert y in owned;
      }
    }
    LowestIdFirstIsUnique(cat.affiliations, fi, c, a);
  }

  /** unique_together = [['administrative_unit', 'group']] */
  predicate ResponsibilitiesUnique(rs: seq<Responsibility>)
  {
    KeysDistinct((r: Responsibility) => (r.unit, r.group.id), rs)
  }

  /** Every affiliation's facility identity exists (a foreign key). */
  predicate AffiliationsResolve(cat: Catalog)
  {
    forall a :: a in cat.affiliations ==>
      exists fi :: fi in cat.facilityIdentities && fi.id == a.owner
  }

  // ---------------------------------------------------------------------------
  // Identity resolution on the two containers

  /** PostalFacility.get_identity_at_date: the earliest-starting identity valid on `d`. */
  function FacilityIdentityAt(cat: Catalog, facility: nat, d: Date): (r: Option<FacilityIdentity>)
    ensures r.Some? ==> r.value in cat.facilityIdentities && r.value.owner == facility
    ensures r.Some? ==> r.value.span.from <= d && (r.value.span.to.None? || d < r.value.span.to.value)
    ensures r.None? <==> forall x :: x in cat.facilityIdentities && x.owner == facility ==> !Covers(x.span, d)
    ensures r.Some? ==> forall x :: x in cat.facilityIdentities && x.owner == facility && Covers(x.span, d) ==>
      r.value.span.from <= x.span.from
    ensures r.Some? ==> IsFirstCovering(FacilityIdentityOrder, cat.facilityIdentities, facility, d, r.value)
  {
    AtDate(FacilityIdentityOrder, OwnedBy(cat.facilityIdentities, facility), d)
  }

  /** PostalFacility.get_current_identity: the earliest-starting identity with no end date. */
  function FacilityCurrentIdentity(cat: Catalog, facility: nat): (r: Option<FacilityIdentity>)
    ensures r.Some? ==> r.value in cat.facilityIdentities && r.value.owner == facility && r.value.span.to.None?
    ensures r.None? <==> forall x :: x in cat.facilityIdentities && x.owner == facility ==> x.span.to.Some?
    ensures r.Some? ==> forall x :: x in cat.facilityIdentities && x.owner == facility && x.span.to.None? ==>
      r.value.span.from <= x.span.from
    ensures r.Some? ==> IsFirstOpen(FacilityIdentityOrder, cat.facilityIdentities, facility, r.value)
  {
    Current(FacilityIdentityOrder, OwnedBy(cat.facilityIdentities, facility))
  }

  /** AdministrativeUnit.get_identity_at_date: the latest-starting identity valid on `d`. */
  function UnitIdentityAt(cat: Catalog, unit: nat, d: Date): (r: Option<UnitIdentity>)
    ensures r.Some? ==> r.value in cat.unitIdentities && r.value.owner == unit
    ensures r.Some? ==> r.value.span.from <= d && (r.value.span.to.None? || d < r.value.span.to.value)
    ensures r.None? <==> forall x :: x in cat.unitIdentities && x.owner == unit ==> !Covers(x.span, d)
    ensures r.Some? ==> forall x :: x in cat.unitIdentities && x.owner == unit && Covers(x.span, d) ==>
      r.value.span.from >= x.span.from
    ensures r.Some? ==> IsFirstCovering(UnitIdentityOrder, cat.unitIdentities, unit, d, r.value)
  {
    AtDate(UnitIdentityOrder, OwnedBy(cat.unitIdentities, unit), d)
  }

  /** AdministrativeUnit.get_current_identity: the latest-starting identity with no end date. */
  function UnitCurrentIdentity(cat: Catalog, unit: nat): (r: Option<UnitIdentity>)
    ensures r.Some? ==> r.value in cat.unitIdentities && r.value.owner == unit && r.value.span.to.None?
    ensures r.None? <==> forall x :: x in cat.unitIdentities && x.owner == unit ==> x.span.to.Some?
    ensures r.Some? ==> forall x :: x in cat.unitIdentities && x.owner == unit && x.span.to.None? ==>
      r.value.span.from >= x.span.from
    ensures r.Some? ==> IsFirstOpen(UnitIdentityOrder, cat.unitIdentities, unit, r.value)
  {
    Current(UnitIdentityOrder, OwnedBy(cat.unitIdentities, unit))
  }

  /** A facility renamed on 1863-06-01 resolves to the old name
      before that date, to the new one on it, and to the new one later. */
  lemma RichmondScenario()
    ensures
      var a := Dated(1, 7, Interval(18600101, Some(18630601)), FacilityDetails("Richmond PO", "POST_OFFICE", true, "", None, None, ""));
      var b := Dated(2, 7, Interval(18630601, None), FacilityDetails("Richmond Branch", "BRANCH", true, "", None, None, ""));
      var cat := Catalog([], [a, b], [], [], [], [], [], [], [], []);
      && FacilityIdentityAt(cat, 7, 18620101) == Some(a)
      && FacilityIdentityAt(cat, 7, 18630601) == Some(b)
      && FacilityIdentityAt(cat, 7, 18700101) == Some(b)
      && FacilityCurrentIdentity(cat, 7) == Some(b)
      && FacilityIdentityAt(cat, 7, 18591231) == None
  {
    var a := Dated(1, 7, Interval(18600101, Some(18630601)), FacilityDetails("Richmond PO", "POST_OFFICE", true, "", None, None, ""));
    var b := Dated(2, 7, Interval(18630601, None), FacilityDetails("Richmond Branch", "BRANCH", true, "", None, None, ""));
    var cat := Catalog([], [a, b], [], [], [], [], [], [], [], []);
    var xs := [a, b];
    assert Disjoint(xs) by {
      assert !Overlaps(a.span, b.span) && !Overlaps(b.span, a.span);
    }
    FilterAll((x: FacilityIdentity) => x.owner == 7, xs);
    assert OwnedBy(cat.facilityIdentities, 7) == xs;
    DisjointResolvesToCoveringRow(FacilityIdentityOrder, xs, a, 18620101);
    DisjointResolvesToCoveringRow(FacilityIdentityOrder, xs, b, 18630601);
    DisjointResolvesToCoveringRow(FacilityIdentityOrder, xs, b, 18700101);
  }

  // ---------------------------------------------------------------------------
  // Second hop

  /** Python truthiness of a nullable Decimal: present and non-zero. */
  predicate Truthy(c: Option<Coordinate>)
  {
    c.Some? && c.value != 0
  }

  /** PostalFacilityIdentity.get_coordinates: the identity's override pair when
      both parts are truthy, otherwise the facility's pair as stored. */
  function IdentityCoordinates(fi: FacilityIdentity, f: PostalFacility): (r: (Option<Coordinate>, Option<Coordinate>))
    requires f.id == fi.owner
    ensures Truthy(fi.details.latitude) && Truthy(fi.details.longitude) ==>
      r.0 == fi.details.latitude && r.1 == fi.details.longitude
    ensures !(Truthy(fi.details.latitude) && Truthy(fi.details.longitude)) ==>
      r.0 == f.latitude && r.1 == f.longitude
  {
    if Truthy(fi.details.latitude) && Truthy(fi.details.longitude) then
      (fi.details.latitude, fi.details.longitude)
    else
      (f.latitude, f.longitude)
  }

  /** AdministrativeUnitIdentity.get_parent_identity_at_this_time: the parent's
      identity on the child identity's start date, or None without a parent. */
  function ParentIdentityAtThisTime(cat: Catalog, child: UnitIdentity): (r: Option<UnitIdentity>)
    ensures child.details.parent.None? ==> r.None?
    ensures r.Some? ==> r.value in cat.unitIdentities && child.details.parent == Some(r.value.owner)
    ensures r.Some? ==> Covers(r.value.span, child.span.from)
    ensures child.details.parent.Some? && r.None? ==>
      forall x :: x in cat.unitIdentities && x.owner == child.details.parent.value ==> !Covers(x.span, child.span.from)
    ensures r.Some? ==> IsFirstCovering(UnitIdentityOrder, cat.unitIdentities, r.value.owner, child.span.from, r.value)
  {
    match child.details.parent
    case None => None
    case Some(p) => UnitIdentityAt(cat, p, child.span.from)
  }

  /** JurisdictionalAffiliation.get_administrative_unit_identity: the unit's
      identity on the affiliation's own start date. */
  function AffiliationUnitIdentity(cat: Catalog, a: Affiliation): (r: Option<UnitIdentity>)
    ensures r.Some? ==> r.value in cat.unitIdentities && r.value.owner == a.details.unit
    ensures r.Some? ==> Covers(r.value.span, a.span.from)
    ensures r.None? <==> forall x :: x in cat.unitIdentities && x.owner == a.details.unit ==> !Covers(x.span, a.span.from)
    ensures r.Some? ==> forall x :: x in cat.unitIdentities && x.owner == a.details.unit && Covers(x.span, a.span.from) ==>
      r.value.span.from >= x.span.from
    ensures r.Some? ==> IsFirstCovering(UnitIdentityOrder, cat.unitIdentities, a.details.unit, a.span.from, r.value)
  {
    UnitIdentityAt(cat, a.details.unit, a.span.from)
  }

  /** A unit renamed after an affiliation began is shown under its old name for
      the affiliation and under its new name as the current one, provided the
      unit's identities do not overlap. */
  lemma RenamedUnitShowsBothNames(cat: Catalog, a: Affiliation, before: UnitIdentity, after: UnitIdentity)
    requires Disjoint(OwnedBy(cat.unitIdentities, a.details.unit))
    requires before in cat.unitIdentities && after in cat.unitIdentities
    requires before.owner == a.details.unit && after.owner == a.details.unit
    requires Covers(before.span, a.span.from)
    requires after.span.to.None?
    ensures AffiliationUnitIdentity(cat, a) == Some(before)
    ensures UnitCurrentIdentity(cat, a.details.unit) == Some(after)
  {
    var xs := OwnedBy(cat.unitIdentities, a.details.unit);
    DisjointResolvesToCoveringRow(UnitIdentityOrder, xs, before, a.span.from);
    var cur := UnitCurrentIdentity(cat, a.details.unit);
    var i :| 0 <= i < |xs| && xs[i] == cur.value;
    var j :| 0 <= j < |xs| && xs[j] == after;
    DisjointHasOneOpenAtMost(xs, i, j);
  }

  // ---------------------------------------------------------------------------
  // Responsible groups

  /** Microseconds in a day: the precision of MySQL's `CURRENT_TIMESTAMP(6)`,
      which Django's `Now()` compiles to. */
  const MicrosecondsPerDay: nat := 86_400_000_000

  type MicrosecondOfDay = n: nat | n < MicrosecondsPerDay

  /** A point in time (Django's `Now()`): a calendar day and the microseconds
      elapsed in it; 0 is exactly midnight. */
  datatype Instant = Instant(day: Date, microsecondOfDay: MicrosecondOfDay)

  /** A date column compared with a timestamp is read as midnight of that day:
      `d >= now` holds when `d` is a later day, or today at exactly midnight. */
  predicate MidnightNotBefore(d: Date, now: Instant)
  {
    d > now.day || (d == now.day && now.microsecondOfDay == 0)
  }

  /** The affiliation-side condition of get_responsible_groups: open, or ending
      no earlier than `now`. There is no check on the start date. */
  predicate GovernsAt(a: Affiliation, now: Instant)
  {
    a.span.to.None? || MidnightNotBefore(a.span.to.value, now)
  }

  /** After midnight an affiliation ending today no longer governs, so apart
      from the start date the rule is the half-open one of identity resolution. */
  lemma GovernsAtIsHalfOpenAfterMidnight(a: Affiliation, now: Instant)
    requires now.microsecondOfDay > 0
    ensures GovernsAt(a, now) <==> a.span.to.None? || now.day < a.span.to.value
    ensures a.span.from <= now.day ==> (GovernsAt(a, now) <==> Covers(a.span, now.day))
  {
  }

  /** An affiliation ending on `day` governs at midnight of that day and not
      one microsecond later. */
  lemma EndingTodayGovernsOnlyAtMidnight(a: Affiliation, day: Date)
    requires a.span.to == Some(day)
    ensures GovernsAt(a, Instant(day, 0))
    ensures forall t: MicrosecondOfDay :: t > 0 ==> !GovernsAt(a, Instant(day, t))
  {
  }

  /** Some affiliation of facility identity `fi` to `unit` still governs at `now`. */
  predicate GovernedBy(cat: Catalog, fi: nat, unit: nat, now: Instant)
  {
    exists a :: a in cat.affiliations && a.owner == fi && a.details.unit == unit && GovernsAt(a, now)
  }

  function GoverningUnits(cat: Catalog, fi: nat, now: Instant): (r: seq<nat>)
    ensures forall u :: u in r <==> GovernedBy(cat, fi, u, now)
  {
    var affs := Filter((a: Affiliation) => a.owner == fi && GovernsAt(a, now), cat.affiliations);
    var units := seq(|affs|, i requires 0 <= i < |affs| => affs[i].details.unit);
    assert forall u :: GovernedBy(cat, fi, u, now) ==> u in units by {
      forall u | GovernedBy(cat, fi, u, now)
        ensures u in units
      {
        var a :| a in cat.affiliations && a.owner == fi && a.details.unit == u && GovernsAt(a, now);
        var k :| 0 <= k < |affs| && affs[k] == a;
        assert units[k] == u;
      }
    }
    units
  }

  /** The active responsibilities behind a postmark's responsible groups. */
  predicate Responsible(cat: Catalog, pm: Postmark, now: Instant, resp: Responsibility)
  {
    resp.isActive && GovernedBy(cat, pm.facilityIdentity, resp.unit, now)
  }

  /** The group of each responsibility, in order. */
  function GroupsOf(resps: seq<Responsibility>): (r: seq<Group>)
    ensures |r| == |resps|
    ensures forall i :: 0 <= i < |r| ==> r[i] == resps[i].group
    ensures forall g :: g in r <==> exists resp :: resp in resps && resp.group == g
  {
    var groups := seq(|resps|, i requires 0 <= i < |resps| => resps[i].group);
    assert forall resp :: resp in resps ==> resp.group in groups by {
      forall resp | resp in resps
        ensures resp.group in groups
      {
        var k :| 0 <= k < |resps| && resps[k] == resp;
        assert groups[k] == resp.group;
      }
    }
    groups
  }

  /** The responsibilities behind ResponsibleGroups, in table order: the
      governing units are collected first, then the active responsibilities
      for any of them are selected (`unit__in=units, is_active=True`). */
  function ResponsibleRows(cat: Catalog, pm: Postmark, now: Instant): (r: seq<Responsibility>)
    ensures forall resp :: resp in r <==> resp in cat.responsibilities && Responsible(cat, pm, now, resp)
    ensures |r| == Count((resp: Responsibility) => Responsible(cat, pm, now, resp), cat.responsibilities)
  {
    var units := GoverningUnits(cat, pm.facilityIdentity, now);
    var p := (resp: Responsibility) => resp.unit in units && resp.isActive;
    var q := (resp: Responsibility) => Responsible(cat, pm, now, resp);
    FilterCongruent(p, q, cat.responsibilities);
    FilterLength(q, cat.responsibilities);
    Filter(p, cat.responsibilities)
  }

  /** Collecting the units first selects, row for row, the responsibilities a
      direct test of each one would select. */
  lemma ResponsibleRowsAreFilter(cat: Catalog, pm: Postmark, now: Instant)
    ensures ResponsibleRows(cat, pm, now) == Filter((resp: Responsibility) => Responsible(cat, pm, now, resp), cat.responsibilities)
  {
    var units := GoverningUnits(cat, pm.facilityIdentity, now);
    FilterCongruent((resp: Responsibility) => resp.unit in units && resp.isActive,
                    (resp: Responsibility) => Responsible(cat, pm, now, resp), cat.responsibilities);
  }

  /** Postmark.get_responsible_groups: the group of every active responsibility
      for a unit reached by an affiliation of the postmark's facility identity
      that is open or ends on or after `now`. A responsibility contributes once,
      however many affiliations reach its unit. */
  function ResponsibleGroups(cat: Catalog, pm: Postmark, now: Instant): (r: seq<Group>)
    ensures forall g :: g in r <==>
      exists resp :: resp in cat.responsibilities && Responsible(cat, pm, now, resp) && resp.group == g
    ensures |r| == Count((resp: Responsibility) => Responsible(cat, pm, now, resp), cat.responsibilities)
  {
    GroupsOf(ResponsibleRows(cat, pm, now))
  }

  /** Affiliations that differ only in their start dates. */
  predicate SameExceptStarts(xs: seq<Affiliation>, ys: seq<Affiliation>)
  {
    |xs| == |ys| &&
    forall i :: 0 <= i < |xs| ==>
      xs[i].id == ys[i].id && xs[i].owner == ys[i].owner &&
      xs[i].span.to == ys[i].span.to && xs[i].details == ys[i].details
  }

  /** The responsible groups do not depend on when affiliations start: an
      affiliation that has not begun yet already grants responsibility. */
  lemma ResponsibleGroupsIgnoreStarts(cat: Catalog, other: Catalog, pm: Postmark, now: Instant)
    requires other == cat.(affiliations := other.affiliations)
    requires SameExceptStarts(cat.affiliations, other.affiliations)
    ensures ResponsibleGroups(cat, pm, now) == ResponsibleGroups(other, pm, now)
  {
    forall u
      ensures GovernedBy(cat, pm.facilityIdentity, u, now) <==> GovernedBy(other, pm.facilityIdentity, u, now)
    {
      if GovernedBy(cat, pm.facilityIdentity, u, now) {
        var a :| a in cat.affiliations && a.owner == pm.facilityIdentity && a.details.unit == u && GovernsAt(a, now);
        var k :| 0 <= k < |cat.affiliations| && cat.affiliations[k] == a;
        assert other.affiliations[k] in other.affiliations;
      }
      if GovernedBy(other, pm.facilityIdentity, u, now) {
        var a :| a in other.affiliations && a.owner == pm.facilityIdentity && a.details.unit == u && GovernsAt(a, now);
        var k :| 0 <= k < |other.affiliations| && other.affiliations[k] == a;
        assert cat.affiliations[k] in cat.affiliations;
      }
    }
    FilterCongruent((resp: Responsibility) => Responsible(cat, pm, now, resp),
                    (resp: Responsibility) => Responsible(other, pm, now, resp),
                    cat.responsibilities);
    ResponsibleRowsAreFilter(cat, pm, now);
    ResponsibleRowsAreFilter(other, pm, now);
  }

  /** With the (unit, group) uniqueness constraint, a postmark governed by a
      single unit gets each group at most once. */
  lemma ResponsibleGroupsDistinctForOneUnit(cat: Catalog, pm: Postmark, now: Instant, unit: nat)
    requires ResponsibilitiesUnique(cat.responsibilities)
    requires forall a :: a in cat.affiliations && a.owner == pm.facilityIdentity && GovernsAt(a, now) ==>
      a.details.unit == unit
    ensures forall i, j :: 0 <= i < j < |ResponsibleGroups(cat, pm, now)| ==>
      ResponsibleGroups(cat, pm, now)[i].id != ResponsibleGroups(cat, pm, now)[j].id
  {
    var key := (r: Responsibility) => (r.unit, r.group.id);
    FilterKeepsKeysDistinct((resp: Responsibility) => Responsible(cat, pm, now, resp), key, cat.responsibilities);
    ResponsibleRowsAreFilter(cat, pm, now);
    var resps := ResponsibleRows(cat, pm, now);
    assert forall k :: 0 <= k < |resps| ==> resps[k].unit == unit;
  }

  /** Across different units the same group can appear more than once. */
  lemma ResponsibleGroupsMayRepeatAcrossUnits()
    ensures
      var g := Group(5, "Virginia editors");
      var cat := Catalog([], [], [], [],
        [Responsibility(1, 10, g, true), Responsibility(2, 11, g, true)],
        [Dated(1, 3, Interval(18600101, None), AffiliationDetails(10, "")),
         Dated(2, 3, Interval(18600101, None), AffiliationDetails(11, ""))],
        [], [], [], []);
      ResponsibleGroups(cat, Postmark(1, 3, "K", "", ""), Instant(20250101, 0)) == [g, g]
  {
    var g := Group(5, "Virginia editors");
    var affs := [Dated(1, 3, Interval(18600101, None), AffiliationDetails(10, "")),
                 Dated(2, 3, Interval(18600101, None), AffiliationDetails(11, ""))];
    var cat := Catalog([], [], [], [], [Responsibility(1, 10, g, true), Responsibility(2, 11, g, true)], affs, [], [], [], []);
    var pm := Postmark(1, 3, "K", "", "");
    var now := Instant(20250101, 0);
    assert GovernedBy(cat, 3, 10, now) by { assert affs[0] in cat.affiliations; }
    assert GovernedBy(cat, 3, 11, now) by { assert affs[1] in cat.affiliations; }
    var units := GoverningUnits(cat, 3, now);
    assert 10 in units && 11 in units;
  }

  // ---------------------------------------------------------------------------
  // String renderings (__str__)

  /** PostalFacility.__str__: "<current name> (<reference code>)", or the bare
      reference code when no identity is open. */
  function FacilityLabel(cat: Catalog, f: PostalFacility): (r: string)
    ensures (forall x :: x in cat.facilityIdentities && x.owner == f.id ==> x.span.to.Some?) ==> r == f.referenceCode
    ensures (exists x :: x in cat.facilityIdentities && x.owner == f.id && x.span.to.None?) ==>
      exists x :: IsFirstOpen(FacilityIdentityOrder, cat.facilityIdentities, f.id, x) &&
        r == x.details.name + " (" + f.referenceCode + ")"
  {
    match FacilityCurrentIdentity(cat, f.id)
    case Some(x) => x.details.name + " (" + f.referenceCode + ")"
    case None => f.referenceCode
  }

  /** AdministrativeUnit.__str__: "<current name> (<reference code>)", or the bare
      reference code when no identity is open. */
  function UnitLabel(cat: Catalog, u: AdministrativeUnit): (r: string)
    ensures (forall x :: x in cat.unitIdentities && x.owner == u.id ==> x.span.to.Some?) ==> r == u.referenceCode
    ensures (exists x :: x in cat.unitIdentities && x.owner == u.id && x.span.to.None?) ==>
      exists x :: IsFirstOpen(UnitIdentityOrder, cat.unitIdentities, u.id, x) &&
        r == x.details.name + " (" + u.referenceCode + ")"
  {
    match UnitCurrentIdentity(cat, u.id)
    case Some(x) => x.details.name + " (" + u.referenceCode + ")"
    case None => u.referenceCode
  }

  /** The unit's current name, falling back to its reference code (shared by
      AdministrativeUnitResponsibility.__str__, the responsibility serializer and
      the responsibility admin). */
  function CurrentNameOrCode(cat: Catalog, u: AdministrativeUnit): (r: string)
    ensures (forall x :: x in cat.unitIdentities && x.owner == u.id ==> x.span.to.Some?) ==> r == u.referenceCode
    ensures (exists x :: x in cat.unitIdentities && x.owner == u.id && x.span.to.None?) ==>
      exists x :: IsFirstOpen(UnitIdentityOrder, cat.unitIdentities, u.id, x) && r == x.details.name
  {
    match UnitCurrentIdentity(cat, u.id)
    case Some(x) => x.details.name
    case None => u.referenceCode
  }

  /** AdministrativeUnitResponsibility.__str__: "<group> → <unit name or code>". */
  function ResponsibilityLabel(cat: Catalog, resp: Responsibility, u: AdministrativeUnit): (r: string)
    requires u.id == resp.unit
    ensures (forall x :: x in cat.unitIdentities && x.owner == u.id ==> x.span.to.Some?) ==>
      r == resp.group.name + " → " + u.referenceCode
    ensures (exists x :: x in cat.unitIdentities && x.owner == u.id && x.span.to.None?) ==>
      exists x :: IsFirstOpen(UnitIdentityOrder, cat.unitIdentities, u.id, x) &&
        r == resp.group.name + " → " + x.details.name
  {
    resp.group.name + " → " + CurrentNameOrCode(cat, u)
  }

  /** The identity __str__ of both identity kinds: "<name> (<from> - <to or 'present'>)". */
  function SpanLabel(name: string, span: Interval, isoDate: Date -> string): (r: string)
    ensures span.to.None? ==> r == name + " (" + isoDate(span.from) + " - present)"
    ensures span.to.Some? ==> r == name + " (" + isoDate(span.from) + " - " + isoDate(span.to.value) + ")"
  {
    name + " (" + isoDate(span.from) + " - " + (if span.to.Some? then isoDate(span.to.value) else "present") + ")"
  }

  /** The name, the start and the end can be read back off a span label: it
      begins with the name, " (", the start and " - ", then holds the end (or
      "present" when the span is open), and closes with ")". */
  lemma SpanLabelReadsBack(name: string, span: Interval, isoDate: Date -> string)
    ensures var r := SpanLabel(name, span, isoDate);
      var head := name + " (" + isoDate(span.from) + " - ";
      |head| < |r| && r[..|head|] == head && r[|r| - 1] == ')' &&
      r[|head|..|r| - 1] == (if span.to.Some? then isoDate(span.to.value) else "present")
  {
    var r := SpanLabel(name, span, isoDate);
    var head := name + " (" + isoDate(span.from) + " - ";
    var tail := if span.to.Some? then isoDate(span.to.value) else "present";
    assert r == head + tail + ")";
  }

  /** JurisdictionalAffiliation.__str__: "<facility> in <unit name then> (<from>)",
      with "Unknown" when the unit has no identity on the affiliation's start. */
  function AffiliationLabel(cat: Catalog, a: Affiliation, fi: FacilityIdentity, isoDate: Date -> string): (r: string)
    requires fi.id == a.owner
    ensures (forall x :: x in cat.unitIdentities && x.owner == a.details.unit ==> !Covers(x.span, a.span.from)) ==>
      r == fi.details.name + " in Unknown (" + isoDate(a.span.from) + ")"
    ensures (exists x :: x in cat.unitIdentities && x.owner == a.details.unit && Covers(x.span, a.span.from)) ==>
      exists x :: IsFirstCovering(UnitIdentityOrder, cat.unitIdentities, a.details.unit, a.span.from, x) &&
        r == fi.details.name + " in " + x.details.name + " (" + isoDate(a.span.from) + ")"
  {
    var name := match AffiliationUnitIdentity(cat, a) case Some(x) => x.details.name case None => "Unknown";
    fi.details.name + " in " + name + " (" + isoDate(a.span.from) + ")"
  }
}

=== FILE: serializers.dfy ===
/**
 The computed fields of the API's serializers (common/serializers.py): the
 current name and type of the list views, the names resolved through the
 temporal resolver, the coordinates pair, image URLs and the responsible
 groups of a postmark. Each getter is a function of the row, the catalog
 and, for URLs, the request.
 */
module Serializers {
  import opened Base
  import opened Temporal
  import opened Models
  import Filters

  // ---------------------------------------------------------------------------
  // Current name and type (list serializers)

  /** PostalFacilityListSerializer.get_current_name. */
  function FacilityCurrentName(cat: Catalog, f: PostalFacility): (r: Option<string>)
    ensures r.None? <==> forall x :: x in cat.facilityIdentities && x.owner == f.id ==> x.span.to.Some?
    ensures r.Some? ==> exists x :: IsFirstOpen(FacilityIdentityOrder, cat.facilityIdentities, f.id, x) && x.details.name == r.value
  {
    match FacilityCurrentIdentity(cat, f.id)
    case Some(x) => Some(x.details.name)
    case None => None
  }

  /** PostalFacilityListSerializer.get_current_type. */
  function FacilityCurrentType(cat: Catalog, f: PostalFacility): (r: Option<string>)
    ensures r.None? <==> forall x :: x in cat.facilityIdentities && x.owner == f.id ==> x.span.to.Some?
    ensures r.Some? ==> exists x :: IsFirstOpen(FacilityIdentityOrder, cat.facilityIdentities, f.id, x) && x.details.facilityType == r.value
  {
    match FacilityCurrentIdentity(cat, f.id)
    case Some(x) => Some(x.details.facilityType)
    case None => None
  }

  /** AdministrativeUnitListSerializer.get_current_name. */
  function UnitCurrentName(cat: Catalog, u: AdministrativeUnit): (r: Option<string>)
    ensures r.None? <==> forall x :: x in cat.unitIdentities && x.owner == u.id ==> x.span.to.Some?
    ensures r.Some? ==> exists x :: IsFirstOpen(UnitIdentityOrder, cat.unitIdentities, u.id, x) && x.details.name == r.value
  {
    match UnitCurrentIdentity(cat, u.id)
    case Some(x) => Some(x.details.name)
    case None => None
  }

  /** AdministrativeUnitListSerializer.get_current_type. */
  function UnitCurrentType(cat: Catalog, u: AdministrativeUnit): (r: Option<string>)
    ensures r.None? <==> forall x :: x in cat.unitIdentities && x.owner == u.id ==> x.span.to.Some?
    ensures r.Some? ==> exists x :: IsFirstOpen(UnitIdentityOrder, cat.unitIdentities, u.id, x) && x.details.unitType == r.value
  {
    match UnitCurrentIdentity(cat, u.id)
    case Some(x) => Some(x.details.unitType)
    case None => None
  }

  /** Name and type are both present or both absent, and the name agrees with
      the unit's string rendering. */
  lemma UnitCurrentFieldsAgree(cat: Catalog, u: AdministrativeUnit)
    ensures UnitCurrentName(cat, u).None? <==> UnitCurrentType(cat, u).None?
    ensures UnitCurrentName(cat, u).Some? ==> UnitLabel(cat, u) == UnitCurrentName(cat, u).value + " (" + u.referenceCode + ")"
    ensures UnitCurrentName(cat, u).None? ==> UnitLabel(cat, u) == u.referenceCode
  {
  }

  /** AdministrativeUnitResponsibilitySerializer.get_administrative_unit_name:
      the responsible unit's current name, or its reference code. */
  function ResponsibilityUnitNameField(cat: Catalog, resp: Responsibility, u: AdministrativeUnit): (r: string)
    requires u.id == resp.unit
    ensures (forall x :: x in cat.unitIdentities && x.owner == u.id ==> x.span.to.Some?) ==> r == u.referenceCode
    ensures (exists x :: x in cat.unitIdentities && x.owner == u.id && x.span.to.None?) ==>
      exists x :: IsFirstOpen(UnitIdentityOrder, cat.unitIdentities, u.id, x) && r == x.details.name
  {
    match UnitCurrentIdentity(cat, resp.unit)
    case Some(x) => x.details.name
    case None => u.referenceCode
  }

  /** The responsibility's unit name is the unit list's current name when there
      is one, the reference code otherwise, and the unit half of the
      responsibility's string rendering. */
  lemma ResponsibilityUnitNameFieldAgrees(cat: Catalog, resp: Responsibility, u: AdministrativeUnit)
    requires u.id == resp.unit
    ensures UnitCurrentName(cat, u).Some? ==> ResponsibilityUnitNameField(cat, resp, u) == UnitCurrentName(cat, u).value
    ensures UnitCurrentName(cat, u).None? ==> ResponsibilityUnitNameField(cat, resp, u) == u.referenceCode
    ensures ResponsibilityLabel(cat, resp, u) == resp.group.name + " → " + ResponsibilityUnitNameField(cat, resp, u)
  {
  }

  // ---------------------------------------------------------------------------
  // Names resolved in time

  /** AdministrativeUnitIdentitySerializer.get_parent_name: the parent's name at
      the child identity's start, or None without a parent or without a parent
      identity at that date. */
  function ParentName(cat: Catalog, child: UnitIdentity): (r: Option<string>)
    ensures child.details.parent.None? ==> r.None?
    ensures child.details.parent.Some? ==> (r.None? <==>
      forall x :: x in cat.unitIdentities && x.owner == child.details.parent.value ==> !Covers(x.span, child.span.from))
    ensures r.Some? ==> exists x: UnitIdentity :: (Some(x.owner) == child.details.parent &&
      IsFirstCovering(UnitIdentityOrder, cat.unitIdentities, x.owner, child.span.from, x) && x.details.name == r.value)
  {
    match ParentIdentityAtThisTime(cat, child)
    case Some(x) => Some(x.details.name)
    case None => None
  }

  /** JurisdictionalAffiliationSerializer.get_administrative_unit_name: the
      unit's name on the affiliation's start date, or None. */
  function AffiliationUnitName(cat: Catalog, a: Affiliation): (r: Option<string>)
    ensures r.None? <==> forall x :: x in cat.unitIdentities && x.owner == a.details.unit ==> !Covers(x.span, a.span.from)
    ensures r.Some? ==> exists x :: (IsFirstCovering(UnitIdentityOrder, cat.unitIdentities, a.details.unit, a.span.from, x) &&
      x.details.name == r.value)
  {
    match AffiliationUnitIdentity(cat, a)
    case Some(x) => Some(x.details.name)
    case None => None
  }

  /** The name shown for an affiliation is the one in force when it began,
      even if the unit has since been renamed. */
  lemma AffiliationShowsNameAtStart(cat: Catalog, a: Affiliation, before: UnitIdentity)
    requires Disjoint(OwnedBy(cat.unitIdentities, a.details.unit))
    requires before in cat.unitIdentities && before.owner == a.details.unit && Covers(before.span, a.span.from)
    ensures AffiliationUnitName(cat, a) == Some(before.details.name)
  {
    DisjointResolvesToCoveringRow(UnitIdentityOrder, OwnedBy(cat.unitIdentities, a.details.unit), before, a.span.from);
  }

  // ---------------------------------------------------------------------------
  // Coordinates

  /** PostalFacilityIdentitySerializer.get_coordinates: the resolved pair when
      both parts are truthy, otherwise None, so a zero coordinate reads as absent. */
  function CoordinatesField(fi: FacilityIdentity, f: PostalFacility): (r: Option<(Coordinate, Coordinate)>)
    requires f.id == fi.owner
    ensures r.Some? <==> (Truthy(fi.details.latitude) && Truthy(fi.details.longitude)) ||
                         (Truthy(f.latitude) && Truthy(f.longitude))
    ensures r.Some? ==> r.value.0 != 0 && r.value.1 != 0
    ensures r.Some? && Truthy(fi.details.latitude) && Truthy(fi.details.longitude) ==>
      r.value == (fi.details.latitude.value, fi.details.longitude.value)
    ensures r.Some? && !(Truthy(fi.details.latitude) && Truthy(fi.details.longitude)) ==>
      r.value == (f.latitude.value, f.longitude.value)
  {
    var coords := IdentityCoordinates(fi, f);
    if Truthy(coords.0) && Truthy(coords.1) then Some((coords.0.value, coords.1.value)) else None
  }

  /** A facility on the equator has coordinates for the has_coordinates filter
      but none in the serialized identity. */
  lemma EquatorHasCoordinatesButSerializesNone()
    ensures
      var f := PostalFacility(1, "EC-QUITO-001", Some(0), Some(-785000000));
      var fi := Dated(2, 1, Interval(19000101, None), FacilityDetails("Quito", "POST_OFFICE", true, "", None, None, ""));
      var cat := Catalog([f], [fi], [], [], [], [], [], [], [], []);
      Filters.FilterHasCoordinates(cat, [fi], Some(true)) == [fi] && CoordinatesField(fi, f).None?
  {
    var f := PostalFacility(1, "EC-QUITO-001", Some(0), Some(-785000000));
    var fi := Dated(2, 1, Interval(19000101, None), FacilityDetails("Quito", "POST_OFFICE", true, "", None, None, ""));
    var cat := Catalog([f], [fi], [], [], [], [], [], [], [], []);
    assert Filters.FacilityOf(cat, fi) == Some(f);
    FilterAll((x: FacilityIdentity) => Filters.FacilityHasCoordinates(cat, x), [fi]);
  }

  // ---------------------------------------------------------------------------
  // Image URLs

  /** The request an image URL is built from. `absoluteUri` stands for
      `request.build_absolute_uri`, which escapes the path, resolves its dot
      segments and joins it to the request's scheme and host. */
  datatype Request = Request(absoluteUri: string -> string)

  /** settings.MEDIA_URL */
  const MediaUrl := "/media/"

  /** The path an image URL is built from: MEDIA_URL, the folder, a slash and
      the stored file name. */
  function MediaPath(folder: string, filename: string): (p: string)
    ensures |p| == |MediaUrl| + |folder| + 1 + |filename|
    ensures p[..|MediaUrl| + |folder| + 1] == MediaUrl + folder + "/"
    ensures p[|MediaUrl| + |folder| + 1..] == filename
  {
    var prefix := MediaUrl + folder + "/";
    assert (prefix + filename)[..|prefix|] == prefix;
    prefix + filename
  }

  /** The stored file name a media path of `folder` names, or None when the
      path lies outside that folder. */
  function StoredName(folder: string, path: string): (r: Option<string>)
    ensures r.Some? <==> |path| >= |MediaUrl| + |folder| + 1 && path[..|MediaUrl| + |folder| + 1] == MediaUrl + folder + "/"
    ensures r.Some? ==> path == MediaUrl + folder + "/" + r.value
  {
    var k := |MediaUrl| + |folder| + 1;
    if |path| >= k && path[..k] == MediaUrl + folder + "/" then
      assert path == path[..k] + path[k..];
      Some(path[k..])
    else None
  }

  /** The media path names its file: reading the name back gives the stored
      file name, so distinct files of one folder get distinct paths. */
  lemma {:induction false} StoredNameOfMediaPath(folder: string, filename: string)
    ensures StoredName(folder, MediaPath(folder, filename)) == Some(filename)
  {
    var p := MediaPath(folder, filename);
    var k := |MediaUrl| + |folder| + 1;
    assert p[..k] == MediaUrl + folder + "/";
    assert p[k..] == filename;
  }

  /** The two image folders never share a media path: the paths differ in the
      folder name whatever the file names are. */
  lemma MediaFoldersNeverCollide(pmName: string, coverName: string)
    ensures MediaPath("postmarks", pmName) != MediaPath("postcovers", coverName)
  {
    var u := MediaPath("postmarks", pmName);
    var v := MediaPath("postcovers", coverName);
    assert u[..|MediaUrl| + 10] == MediaUrl + "postmarks" + "/";
    assert v[..|MediaUrl| + 11] == MediaUrl + "postcovers" + "/";
    assert u[|MediaUrl| + 4] == 'm' && v[|MediaUrl| + 4] == 'c';
  }

  /** `request.build_absolute_uri(MEDIA_URL + folder + "/" + filename)` when the
      file name is non-empty and a request is present, otherwise None. */
  function ImageUrl(folder: string, filename: string, request: Option<Request>): (r: Option<string>)
    ensures r.None? <==> filename == "" || request.None?
    ensures r.Some? ==> r.value == request.value.absoluteUri(MediaPath(folder, filename))
  {
    if filename != "" && request.Some? then Some(request.value.absoluteUri(MediaPath(folder, filename)))
    else None
  }

  /** PostmarkImageSerializer.get_image_url. */
  function PostmarkImageUrl(img: PostmarkImage, request: Option<Request>): (r: Option<string>)
    ensures r.None? <==> img.storageFilename == "" || request.None?
    ensures r.Some? ==> r.value == request.value.absoluteUri(MediaPath("postmarks", img.storageFilename))
  {
    ImageUrl("postmarks", img.storageFilename, request)
  }

  /** PostcoverImageSerializer.get_image_url. */
  function PostcoverImageUrl(img: PostcoverImage, request: Option<Request>): (r: Option<string>)
    ensures r.None? <==> img.storageFilename == "" || request.None?
    ensures r.Some? ==> r.value == request.value.absoluteUri(MediaPath("postcovers", img.storageFilename))
  {
    ImageUrl("postcovers", img.storageFilename, request)
  }

  // ---------------------------------------------------------------------------
  // Responsible groups

  /** The `{id, name}` object of one group. */
  datatype GroupJson = GroupJson(id: GroupId, name: string)

  /** get_responsible_groups of both postmark serializers: one `{id, name}` per
      responsible group, in the same order. */
  function ResponsibleGroupsField(cat: Catalog, pm: Postmark, now: Instant): (r: seq<GroupJson>)
    ensures |r| == |ResponsibleGroups(cat, pm, now)|
    ensures forall i :: 0 <= i < |r| ==>
      r[i].id == ResponsibleGroups(cat, pm, now)[i].id && r[i].name == ResponsibleGroups(cat, pm, now)[i].name
  {
    var groups := ResponsibleGroups(cat, pm, now);
    seq(|groups|, i requires 0 <= i < |groups| => GroupJson(groups[i].id, groups[i].name))
  }

  /** A group id is listed exactly when an active responsibility of that group
      covers a unit governing the postmark. */
  lemma ResponsibleGroupsFieldListsResponsibleGroups(cat: Catalog, pm: Postmark, now: Instant, id: GroupId)
    ensures (exists i :: 0 <= i < |ResponsibleGroupsField(cat, pm, now)| && ResponsibleGroupsField(cat, pm, now)[i].id == id) <==>
      exists resp :: resp in cat.responsibilities && Responsible(cat, pm, now, resp) && resp.group.id == id
  {
    var groups := ResponsibleGroups(cat, pm, now);
    var r := ResponsibleGroupsField(cat, pm, now);
    if i :| 0 <= i < |r| && r[i].id == id {
      assert groups[i] in groups;
    }
    if resp :| resp in cat.responsibilities && Responsible(cat, pm, now, resp) && resp.group.id == id {
      assert resp.group in groups;
      var k :| 0 <= k < |groups| && groups[k] == resp.group;
      assert r[k].id == id;
    }
  }
}

=== FILE: temporal.dfy ===
/**
 The temporal resolver shared by every time-sliced record of the catalog:
 postal-facility identities, administrative-unit identities and
 jurisdictional affiliations. Each is valid over the half-open interval
 [from, to), a missing `to` meaning "still current".

 Django's `.first()` picks the first row under the model's ordering; the
 three orderings that occur are named by `Ordering`. Rows with equal sort
 keys are not ordered by the database, so contracts only promise "some
 matching row with an extremal key"; the implementation keeps the earliest
 such row in catalog order.
 */
module Temporal {
  import opened Base

  /** A calendar date; any order-preserving encoding (e.g. YYYYMMDD) will do. */
  type Date = int

  /** The validity interval [from, to); `to == None` means open-ended. */
  datatype Interval = Interval(from: Date, to: Option<Date>)

  /** A time-sliced row: primary key, the row it belongs to, validity and payload. */
  datatype Dated<T> = Dated(id: nat, owner: nat, span: Interval, details: T)

  /** The interval contains `d`: start inclusive, end exclusive. */
  predicate Covers(iv: Interval, d: Date)
  {
    iv.from <= d && (iv.to.None? || d < iv.to.value)
  }

  predicate IsOpen(iv: Interval)
  {
    iv.to.None?
  }

  /** The later of the two start dates. */
  function LaterStart(a: Interval, b: Interval): Date
  {
    if a.from <= b.from then b.from else a.from
  }

  /** The two intervals overlap: both are still valid when the later one starts. */
  predicate Overlaps(a: Interval, b: Interval)
  {
    Covers(a, LaterStart(a, b)) && Covers(b, LaterStart(a, b))
  }

  /** Overlap, stated on the bounds, is exactly "some date lies in both". */
  lemma OverlapsIffCommonDate(a: Interval, b: Interval)
    ensures Overlaps(a, b) <==> exists d :: Covers(a, d) && Covers(b, d)
  {
    if d :| Covers(a, d) && Covers(b, d) {
      assert LaterStart(a, b) <= d;
    }
  }

  /** No two distinct rows of `xs` are valid on a common date. */
  predicate Disjoint<T>(xs: seq<Dated<T>>)
  {
    forall i, j :: 0 <= i < |xs| && 0 <= j < |xs| && i != j ==> !Overlaps(xs[i].span, xs[j].span)
  }

  // ---------------------------------------------------------------------------
  // `.first()` under a model ordering

  datatype Ordering =
    | EarliestStartFirst   // ordering = [..., 'effective_from_date']
    | LatestStartFirst     // ordering = [..., '-effective_from_date']
    | LowestIdFirst        // no Meta.ordering: `.first()` orders by primary key

  /** `a` may come before `b` under ordering `o`. */
  predicate Precedes<T>(o: Ordering, a: Dated<T>, b: Dated<T>)
  {
    match o
    case EarliestStartFirst => a.span.from <= b.span.from
    case LatestStartFirst => a.span.from >= b.span.from
    case LowestIdFirst => a.id <= b.id
  }

  /** The sort key of ordering `o`. */
  function Key<T>(o: Ordering, a: Dated<T>): int
  {
    if o.LowestIdFirst? then a.id else a.span.from
  }

  /** `.first()`: a row that comes no later than any other, or None for no rows. */
  function First<T(!new)>(o: Ordering, xs: seq<Dated<T>>): (r: Option<Dated<T>>)
    ensures r.None? <==> |xs| == 0
    ensures r.Some? ==> r.value in xs && forall y :: y in xs ==> Precedes(o, r.value, y)
    decreases |xs|
  {
    if |xs| == 0 then None
    else
      var rest := First(o, xs[1..]);
      assert forall y :: y in xs ==> y == xs[0] || y in xs[1..];
      if rest.None? || Precedes(o, xs[0], rest.value) then Some(xs[0]) else rest
  }

  /** When sort keys are pairwise distinct the choice of `.first()` does not
      depend on the order in which the rows are stored. */
  lemma FirstIgnoresStorageOrder<T(!new)>(o: Ordering, xs: seq<Dated<T>>, ys: seq<Dated<T>>)
    requires multiset(xs) == multiset(ys)
    requires forall i, j :: 0 <= i < |xs| && 0 <= j < |xs| && i != j ==> Key(o, xs[i]) != Key(o, xs[j])
    ensures First(o, xs) == First(o, ys)
  {
    var a, b := First(o, xs), First(o, ys);
    assert |xs| == |multiset(xs)| == |multiset(ys)| == |ys|;
    if a.Some? {
      assert b.Some?;
      assert b.value in multiset(ys);
      assert b.value in xs;
      assert a.value in multiset(xs);
      assert a.value in ys;
      assert Precedes(o, a.value, b.value) && Precedes(o, b.value, a.value);
      assert Key(o, a.value) == Key(o, b.value);
      var i :| 0 <= i < |xs| && xs[i] == a.value;
      var j :| 0 <= j < |xs| && xs[j] == b.value;
    }
  }

  // ---------------------------------------------------------------------------
  // Resolution

  /** `get_identity_at_date`: the first row, under `o`, whose interval contains `d`. */
  function AtDate<T(!new)>(o: Ordering, xs: seq<Dated<T>>, d: Date): (r: Option<Dated<T>>)
    ensures r.Some? ==> r.value in xs && Covers(r.value.span, d)
    ensures r.Some? ==> r.value.span.from <= d && r.value.span.to != Some(d)
    ensures r.None? <==> forall x :: x in xs ==> !Covers(x.span, d)
    ensures r.Some? ==> forall x :: x in xs && Covers(x.span, d) ==> Precedes(o, r.value, x)
  {
    First(o, Filter((x: Dated<T>) => Covers(x.span, d), xs))
  }

  /** `get_current_identity`: the first row, under `o`, with no end date. */
  function Current<T(!new)>(o: Ordering, xs: seq<Dated<T>>): (r: Option<Dated<T>>)
    ensures r.Some? ==> r.value in xs && IsOpen(r.value.span)
    ensures r.None? <==> forall x :: x in xs ==> !IsOpen(x.span)
    ensures r.Some? ==> forall x :: x in xs && IsOpen(x.span) ==> Precedes(o, r.value, x)
  {
    First(o, Filter((x: Dated<T>) => IsOpen(x.span), xs))
  }

  /** `x` is an open row of `owner` that `.first()` under `o` may return from
      `xs`: no other open row of `owner` comes before it. */
  ghost predicate IsFirstOpen<T>(o: Ordering, xs: seq<Dated<T>>, owner: nat, x: Dated<T>)
  {
    x in xs && x.owner == owner && IsOpen(x.span) &&
    forall y :: y in xs && y.owner == owner && IsOpen(y.span) ==> Precedes(o, x, y)
  }

  /** `x` is a row of `owner` valid on `d` that `.first()` under `o` may return
      from `xs`: no other row of `owner` valid on `d` comes before it. */
  ghost predicate IsFirstCovering<T>(o: Ordering, xs: seq<Dated<T>>, owner: nat, d: Date, x: Dated<T>)
  {
    x in xs && x.owner == owner && Covers(x.span, d) &&
    forall y :: y in xs && y.owner == owner && Covers(y.span, d) ==> Precedes(o, x, y)
  }

  /** The rows belonging to one container (a reverse foreign-key manager). */
  function OwnedBy<T(!new)>(xs: seq<Dated<T>>, owner: nat): (r: seq<Dated<T>>)
    ensures forall x :: x in r <==> x in xs && x.owner == owner
  {
    Filter((x: Dated<T>) => x.owner == owner, xs)
  }

  /** A primary-key lookup: the row with id `id`, or None. */
  function FindById<T>(xs: seq<Dated<T>>, id: nat): (r: Option<Dated<T>>)
    ensures r.Some? ==> r.value in xs && r.value.id == id
    ensures r.None? <==> forall i :: 0 <= i < |xs| ==> xs[i].id != id
    decreases |xs|
  {
    if |xs| == 0 then None
    else if xs[0].id == id then Some(xs[0])
    else FindById(xs[1..], id)
  }

  /** With disjoint intervals, resolving at any date inside a row's interval
      returns exactly that row, whatever the ordering. */
  lemma DisjointResolvesToCoveringRow<T(!new)>(o: Ordering, xs: seq<Dated<T>>, x: Dated<T>, d: Date)
    requires Disjoint(xs)
    requires x in xs && Covers(x.span, d)
    ensures AtDate(o, xs, d) == Some(x)
  {
    var r := AtDate(o, xs, d);
    assert r.Some?;
    if r.value != x {
      var i :| 0 <= i < |xs| && xs[i] == r.value;
      var j :| 0 <= j < |xs| && xs[j] == x;
      OverlapsIffCommonDate(xs[i].span, xs[j].span);
      assert false;
    }
  }

  /** Disjoint rows have at most one open-ended interval. */
  lemma DisjointHasOneOpenAtMost<T>(xs: seq<Dated<T>>, i: int, j: int)
    requires Disjoint(xs)
    requires 0 <= i < |xs| && 0 <= j < |xs|
    requires IsOpen(xs[i].span) && IsOpen(xs[j].span)
    ensures i == j
  {
  }

  /** With disjoint intervals the current row is also the row at every date
      from its start onwards. */
  lemma CurrentIsRowAtLaterDates<T(!new)>(o: Ordering, xs: seq<Dated<T>>, d: Date)
    requires Disjoint(xs)
    requires Current(o, xs).Some?
    requires Current(o, xs).value.span.from <= d
    ensures AtDate(o, xs, d) == Current(o, xs)
  {
    DisjointResolvesToCoveringRow(o, xs, Current(o, xs).value, d);
  }

  // ---------------------------------------------------------------------------
  // Timeline order

  /** Ascending by start date. */
  predicate SortedByStart<T>(xs: seq<Dated<T>>)
  {
    forall i, j :: 0 <= i < j < |xs| ==> xs[i].span.from <= xs[j].span.from
  }

  function InsertByStart<T>(x: Dated<T>, xs: seq<Dated<T>>): (r: seq<Dated<T>>)
    requires SortedByStart(xs)
    ensures SortedByStart(r)
    ensures multiset(r) == multiset(xs) + multiset{x}
    decreases |xs|
  {
    if |xs| == 0 then [x]
    else if x.span.from <= xs[0].span.from then [x] + xs
    else
      var rest := InsertByStart(x, xs[1..]);
      InsertKeepsHeadFirst(x, xs, rest);
      assert xs == [xs[0]] + xs[1..];
      [xs[0]] + rest
  }

  /** Inserting a later-starting row behind the head keeps the head first. */
  lemma InsertKeepsHeadFirst<T>(x: Dated<T>, xs: seq<Dated<T>>, rest: seq<Dated<T>>)
    requires |xs| > 0 && SortedByStart(xs) && SortedByStart(rest)
    requires xs[0].span.from < x.span.from
    requires multiset(rest) == multiset(xs[1..]) + multiset{x}
    ensures SortedByStart([xs[0]] + rest)
  {
    forall k | 0 <= k < |rest|
      ensures xs[0].span.from <= rest[k].span.from
    {
      assert rest[k] in multiset(rest);
      if rest[k] != x {
        assert rest[k] in multiset(xs[1..]);
        var m :| 0 <= m < |xs[1..]| && xs[1..][m] == rest[k];
        assert xs[m + 1] == rest[k];
      }
    }
  }

  /** `order_by('effective_from_date')`: the same rows, ascending by start date. */
  function SortByStart<T>(xs: seq<Dated<T>>): (r: seq<Dated<T>>)
    ensures SortedByStart(r)
    ensures multiset(r) == multiset(xs)
    decreases |xs|
  {
    if |xs| == 0 then []
    else
      assert xs == [xs[0]] + xs[1..];
      InsertByStart(xs[0], SortByStart(xs[1..]))
  }
}

=== FILE: views.dfy ===
/**
 The API endpoints' selection rules (common/views.py): the region
 permission, the identity endpoints of the two containers, the
 responsibility-driven lists, image moderation and audit stamping on create
 and update. Each endpoint is a function from the catalog and the request's
 inputs to a `Reply`; rendering, pagination and routing are not modelled.
 */
module Views {
  import opened Base
  import opened Temporal
  import opened Models

  /** The requesting user as the permission code sees it. */
  datatype Principal = Principal(id: UserId, isAuthenticated: bool, isSuperuser: bool, groups: set<GroupId>)

  /** A user Django can present: the anonymous user belongs to no group and is
      not a superuser (its `groups` manager is always empty). */
  type User = u: Principal | !u.isAuthenticated ==> u.groups == {} && !u.isSuperuser
    witness Principal(0, false, false, {})

  /** An HTTP response: a body with status 200, or one of the error statuses. */
  datatype Reply<T> =
    | Ok(body: T)
    | BadRequest(message: string)
    | Forbidden(message: string)
    | NotFound(message: string)
    | ServerError(message: string)
  {
    function Status(): int
    {
      match this
      case Ok(_) => 200
      case BadRequest(_) => 400
      case Forbidden(_) => 403
      case NotFound(_) => 404
      case ServerError(_) => 500
    }
  }

  /** Methods that only read. */
  const SafeMethods: seq<string> := ["GET", "HEAD", "OPTIONS"]

  /** The object a permission check is asked about. */
  datatype Target = PostmarkTarget(pm: Postmark) | OtherTarget

  /** Some group of the user is among the postmark's responsible groups
      (groups compare by primary key). */
  predicate UserResponsibleFor(cat: Catalog, user: User, pm: Postmark, now: Instant)
  {
    exists g :: g in ResponsibleGroups(cat, pm, now) && g.id in user.groups
  }

  /** IsResponsibleForRegion.has_object_permission. Reads are always allowed; a
      mutation of a postmark needs one of the user's groups to hold an active
      responsibility for a unit governing it; any other object needs only an
      authenticated user. Superusers get no bypass. */
  function HasObjectPermission(cat: Catalog, user: User, verb: string, target: Target, now: Instant): (r: bool)
    ensures verb in SafeMethods ==> r
    ensures verb !in SafeMethods && target.PostmarkTarget? ==>
      (r <==> exists resp :: resp in cat.responsibilities && Responsible(cat, target.pm, now, resp) && resp.group.id in user.groups)
    ensures verb !in SafeMethods && target.OtherTarget? ==> (r <==> user.isAuthenticated)
  {
    if verb in SafeMethods then true
    else match target
      case PostmarkTarget(pm) => UserResponsibleFor(cat, user, pm, now)
      case OtherTarget => user.isAuthenticated
  }

  /** With no responsible group a postmark cannot be changed by anyone, superusers included. */
  lemma NobodyMutatesAnUngovernedPostmark(cat: Catalog, user: User, verb: string, pm: Postmark, now: Instant)
    requires verb !in SafeMethods
    requires forall resp :: resp in cat.responsibilities ==> !Responsible(cat, pm, now, resp)
    ensures !HasObjectPermission(cat, user, verb, PostmarkTarget(pm), now)
  {
  }

  /** An anonymous user holds no group, so no unsafe method on a postmark passes
      the object permission, and IsAuthenticatedOrReadOnly rejects it first. */
  lemma AnonymousNeverMutatesAPostmark(cat: Catalog, user: User, verb: string, pm: Postmark, now: Instant)
    requires !user.isAuthenticated
    requires verb !in SafeMethods
    ensures !HasObjectPermission(cat, user, verb, PostmarkTarget(pm), now)
  {
  }

  // ---------------------------------------------------------------------------
  // Facility and unit endpoints

  predicate FacilityExists(cat: Catalog, id: nat)
  {
    exists f :: f in cat.facilities && f.id == id
  }

  /** PostalFacilityViewSet.identity_at_date: 404 for an unknown facility, 400
      for a missing, empty or unparsable `date`, 404 when no identity covers the
      date, otherwise the identity resolved at that date. `parse` stands for
      `date.fromisoformat`. */
  function IdentityAtDate(cat: Catalog, facility: nat, dateParam: Option<string>, parse: string -> Option<Date>): (r: Reply<FacilityIdentity>)
    ensures !FacilityExists(cat, facility) ==> r.Status() == 404
    ensures FacilityExists(cat, facility) && (dateParam.None? || dateParam.value == "") ==>
      r == BadRequest("date parameter required (YYYY-MM-DD)")
    ensures FacilityExists(cat, facility) && dateParam.Some? && dateParam.value != "" && parse(dateParam.value).None? ==>
      r == BadRequest("Invalid date format, use YYYY-MM-DD")
    ensures r.Ok? <==> (FacilityExists(cat, facility) && dateParam.Some? && dateParam.value != "" &&
      parse(dateParam.value).Some? &&
      exists x :: x in cat.facilityIdentities && x.owner == facility && Covers(x.span, parse(dateParam.value).value))
    ensures r.Ok? ==> IsFirstCovering(FacilityIdentityOrder, cat.facilityIdentities, facility, parse(dateParam.value).value, r.body)
    ensures r.NotFound? && FacilityExists(cat, facility) ==> r.message == "No identity found for " + dateParam.value
  {
    if !FacilityExists(cat, facility) then NotFound("No PostalFacility matches the given query.")
    else if dateParam.None? || dateParam.value == "" then BadRequest("date parameter required (YYYY-MM-DD)")
    else match parse(dateParam.value)
      case None => BadRequest("Invalid date format, use YYYY-MM-DD")
      case Some(d) =>
        match FacilityIdentityAt(cat, facility, d)
        case Some(x) => Ok(x)
        case None => NotFound("No identity found for " + dateParam.value)
  }

  /** identities_timeline of either container: all its identities, ascending by start date. */
  function Timeline<T(!new)>(identities: seq<Dated<T>>, owner: nat): (r: seq<Dated<T>>)
    ensures SortedByStart(r)
    ensures multiset(r) == multiset(OwnedBy(identities, owner))
    ensures forall x :: x in r <==> x in identities && x.owner == owner
  {
    var mine := OwnedBy(identities, owner);
    var r := SortByStart(mine);
    assert forall x :: x in r <==> x in multiset(r);
    assert forall x :: x in mine <==> x in multiset(mine);
    r
  }

  function FacilityTimeline(cat: Catalog, facility: nat): (r: seq<FacilityIdentity>)
    ensures SortedByStart(r)
    ensures forall x :: x in r <==> x in cat.facilityIdentities && x.owner == facility
    ensures |r| == |OwnedBy(cat.facilityIdentities, facility)|
  {
    var r := Timeline(cat.facilityIdentities, facility);
    assert |multiset(r)| == |multiset(OwnedBy(cat.facilityIdentities, facility))|;
    r
  }

  function UnitTimeline(cat: Catalog, unit: nat): (r: seq<UnitIdentity>)
    ensures SortedByStart(r)
    ensures forall x :: x in r <==> x in cat.unitIdentities && x.owner == unit
    ensures |r| == |OwnedBy(cat.unitIdentities, unit)|
  {
    var r := Timeline(cat.unitIdentities, unit);
    assert |multiset(r)| == |multiset(OwnedBy(cat.unitIdentities, unit))|;
    r
  }

  /** The owners of the identities in `xs`, in order. */
  function OwnersOf<T(!new)>(xs: seq<Dated<T>>): (r: seq<nat>)
    ensures |r| == |xs|
    ensures forall i :: 0 <= i < |r| ==> r[i] == xs[i].owner
    ensures forall u :: u in r <==> exists x :: x in xs && x.owner == u
  {
    var r := seq(|xs|, i requires 0 <= i < |xs| => xs[i].owner);
    assert forall x :: x in xs ==> x.owner in r by {
      forall x | x in xs
        ensures x.owner in r
      {
        var k :| 0 <= k < |xs| && xs[k] == x;
        assert r[k] == x.owner;
      }
    }
    r
  }

  /** AdministrativeUnitViewSet.children: the unit of every open identity whose
      parent is `parent`, once per such identity. */
  function Children(cat: Catalog, parent: nat): (r: seq<nat>)
    ensures forall u :: u in r <==>
      exists x :: x in cat.unitIdentities && x.owner == u && x.details.parent == Some(parent) && x.span.to.None?
    ensures |r| == Count((x: UnitIdentity) => x.details.parent == Some(parent) && x.span.to.None?, cat.unitIdentities)
  {
    var p := (x: UnitIdentity) => x.details.parent == Some(parent) && x.span.to.None?;
    FilterLength(p, cat.unitIdentities);
    OwnersOf(Filter(p, cat.unitIdentities))
  }

  /** Each unit has at most one open identity. */
  predicate OneOpenIdentityPerUnit(cat: Catalog)
  {
    forall x, y :: (x in cat.unitIdentities && y in cat.unitIdentities && x.owner == y.owner &&
      x.span.to.None? && y.span.to.None?) ==> x == y
  }

  /** When every unit has at most one open identity, the children are exactly
      the units whose current identity names `parent` as parent. */
  lemma ChildrenAreUnitsWhoseCurrentParentIs(cat: Catalog, parent: nat, u: nat)
    requires OneOpenIdentityPerUnit(cat)
    ensures u in Children(cat, parent) <==>
      UnitCurrentIdentity(cat, u).Some? && UnitCurrentIdentity(cat, u).value.details.parent == Some(parent)
  {
    if u in Children(cat, parent) {
      var x :| x in cat.unitIdentities && x.owner == u && x.details.parent == Some(parent) && x.span.to.None?;
      assert UnitCurrentIdentity(cat, u).Some?;
      assert UnitCurrentIdentity(cat, u).value == x;
    }
  }

  /** Primary keys are unique and every affiliation's facility identity exists. */
  predicate AffiliationJoinsResolve(cat: Catalog)
  {
    UniqueIds(cat.facilityIdentities) && AffiliationsResolve(cat)
  }

  /** Facility `f` owns the facility identity of affiliation `a`. */
  predicate FacilityOfAffiliation(cat: Catalog, a: Affiliation, f: nat)
  {
    exists fi :: fi in cat.facilityIdentities && fi.id == a.owner && fi.owner == f
  }

  /** The facility behind one affiliation (through its facility identity). */
  function AffiliatedFacility(cat: Catalog, a: Affiliation): (r: nat)
    requires AffiliationJoinsResolve(cat)
    requires a in cat.affiliations
    ensures forall f :: FacilityOfAffiliation(cat, a, f) <==> f == r
  {
    var found := FindById(cat.facilityIdentities, a.owner);
    assert found.Some?;
    found.value.owner
  }

  /** The facility of each affiliation, in order. */
  function AffiliatedFacilities(cat: Catalog, affs: seq<Affiliation>): (r: seq<nat>)
    requires AffiliationJoinsResolve(cat)
    requires forall a :: a in affs ==> a in cat.affiliations
    ensures |r| == |affs|
    ensures forall f :: f in r <==> exists a :: a in affs && FacilityOfAffiliation(cat, a, f)
  {
    var r := seq(|affs|, i requires 0 <= i < |affs| => AffiliatedFacility(cat, affs[i]));
    assert forall a :: a in affs ==> AffiliatedFacility(cat, a) in r by {
      forall a | a in affs
        ensures AffiliatedFacility(cat, a) in r
      {
        var k :| 0 <= k < |affs| && affs[k] == a;
        assert r[k] == AffiliatedFacility(cat, a);
      }
    }
    assert forall k :: 0 <= k < |r| ==> affs[k] in affs && FacilityOfAffiliation(cat, affs[k], r[k]);
    r
  }

  /** An open affiliation to `unit`. */
  predicate OpenAffiliationTo(a: Affiliation, unit: nat)
  {
    a.details.unit == unit && a.span.to.None?
  }

  /** AdministrativeUnitViewSet.facilities: the facility of every open
      affiliation to `unit`, once per affiliation, so a facility can repeat. */
  function Facilities(cat: Catalog, unit: nat): (r: seq<nat>)
    requires AffiliationJoinsResolve(cat)
    ensures forall f :: f in r <==>
      exists a :: a in cat.affiliations && OpenAffiliationTo(a, unit) && FacilityOfAffiliation(cat, a, f)
    ensures |r| == Count((a: Affiliation) => OpenAffiliationTo(a, unit), cat.affiliations)
  {
    var p := (a: Affiliation) => OpenAffiliationTo(a, unit);
    FilterLength(p, cat.affiliations);
    AffiliatedFacilities(cat, Filter(p, cat.affiliations))
  }

  /** Two open affiliations of one facility identity to the same unit list
      that facility twice. */
  lemma FacilitiesMayRepeat()
    ensures
      var fi := Dated(4, 9, Interval(18600101, None), FacilityDetails("Richmond PO", "POST_OFFICE", true, "", None, None, ""));
      var cat := Catalog([], [fi], [], [], [],
        [Dated(1, 4, Interval(18600101, None), AffiliationDetails(10, "Organic Act")),
         Dated(2, 4, Interval(18610101, None), AffiliationDetails(10, "Treaty"))],
        [], [], [], []);
      AffiliationJoinsResolve(cat) && Facilities(cat, 10) == [9, 9]
  {
    var fi := Dated(4, 9, Interval(18600101, None), FacilityDetails("Richmond PO", "POST_OFFICE", true, "", None, None, ""));
    var affs := [Dated(1, 4, Interval(18600101, None), AffiliationDetails(10, "Organic Act")),
                 Dated(2, 4, Interval(18610101, None), AffiliationDetails(10, "Treaty"))];
    var cat := Catalog([], [fi], [], [], [], affs, [], [], [], []);
    assert AffiliationsResolve(cat) by {
      assert forall a :: a in cat.affiliations ==> a.owner == 4;
    }
    var p := (a: Affiliation) => OpenAffiliationTo(a, 10);
    FilterAll(p, affs);
    assert Filter(p, cat.affiliations) == affs;
    var r := AffiliatedFacilities(cat, affs);
    assert FacilityOfAffiliation(cat, affs[0], 9) && FacilityOfAffiliation(cat, affs[1], 9);
    assert r == [9, 9];
  }

  /** AdministrativeUnitViewSet.responsible_groups: the unit's active responsibilities. */
  function UnitResponsibilities(cat: Catalog, unit: nat): (r: seq<Responsibility>)
    ensures forall resp :: resp in r <==> resp in cat.responsibilities && resp.unit == unit && resp.isActive
    ensures ResponsibilitiesUnique(cat.responsibilities) ==>
      forall i, j :: 0 <= i < j < |r| ==> r[i].group.id != r[j].group.id
  {
    var p := (resp: Responsibility) => resp.unit == unit && resp.isActive;
    var key := (resp: Responsibility) => (resp.unit, resp.group.id);
    var r := Filter(p, cat.responsibilities);
    assert ResponsibilitiesUnique(cat.responsibilities) ==>
      forall i, j :: 0 <= i < j < |r| ==> r[i].group.id != r[j].group.id
    by {
      if ResponsibilitiesUnique(cat.responsibilities) {
        FilterKeepsKeysDistinct(p, key, cat.responsibilities);
        assert forall k :: 0 <= k < |r| ==> r[k].unit == unit;
      }
    }
    r
  }

  /** An active responsibility held by one of the user's groups. */
  predicate HeldBy(user: User, resp: Responsibility)
  {
    resp.isActive && resp.group.id in user.groups
  }

  /** The message DRF's session authentication gives an anonymous request. */
  const NotAuthenticatedMessage := "Authentication credentials were not provided."

  /** AdministrativeUnitViewSet.my_responsibilities: the unit of every active
      responsibility held by one of the user's groups; 403 for anonymous users. */
  function MyResponsibilities(cat: Catalog, user: User): (r: Reply<seq<nat>>)
    ensures !user.isAuthenticated <==> r == Forbidden(NotAuthenticatedMessage)
    ensures r.Ok? ==> forall u :: u in r.body <==>
      exists resp :: resp in cat.responsibilities && HeldBy(user, resp) && resp.unit == u
    ensures r.Ok? ==> |r.body| == Count((resp: Responsibility) => HeldBy(user, resp), cat.responsibilities)
  {
    if !user.isAuthenticated then Forbidden(NotAuthenticatedMessage)
    else
      var p := (resp: Responsibility) => HeldBy(user, resp);
      var resps := Filter(p, cat.responsibilities);
      FilterLength(p, cat.responsibilities);
      var units := seq(|resps|, i requires 0 <= i < |resps| => resps[i].unit);
      assert forall resp :: resp in resps ==> resp.unit in units by {
        forall resp | resp in resps
          ensures resp.unit in units
        {
          var k :| 0 <= k < |resps| && resps[k] == resp;
          assert units[k] == resp.unit;
        }
      }
      Ok(units)
  }

  /** The postmark's facility identity has an open affiliation to a unit one of
      the user's groups is actively responsible for. */
  predicate InMyRegion(cat: Catalog, user: User, pm: Postmark)
  {
    exists resp, a :: resp in cat.responsibilities && HeldBy(user, resp) &&
      a in cat.affiliations && a.details.unit == resp.unit && a.span.to.None? && a.owner == pm.facilityIdentity
  }

  /** PostmarkViewSet.my_region: the postmarks in the user's region, in table
      order; 403 for anonymous users. */
  function MyRegion(cat: Catalog, user: User): (r: Reply<seq<Postmark>>)
    ensures !user.isAuthenticated <==> r == Forbidden(NotAuthenticatedMessage)
    ensures r.Ok? ==> forall pm :: pm in r.body <==> pm in cat.postmarks && InMyRegion(cat, user, pm)
    ensures r.Ok? ==> |r.body| <= |cat.postmarks|
  {
    if !user.isAuthenticated then Forbidden(NotAuthenticatedMessage)
    else Ok(Filter((pm: Postmark) => InMyRegion(cat, user, pm), cat.postmarks))
  }

  /** Every postmark listed by my_region may be changed by the user, whenever
      the change is made: an open affiliation governs at any instant. */
  lemma MyRegionIsMutable(cat: Catalog, user: User, pm: Postmark, verb: string, now: Instant)
    requires MyRegion(cat, user).Ok? && pm in MyRegion(cat, user).body
    ensures HasObjectPermission(cat, user, verb, PostmarkTarget(pm), now)
  {
    if verb !in SafeMethods {
      var resp, a :| resp in cat.responsibilities && HeldBy(user, resp) &&
        a in cat.affiliations && a.details.unit == resp.unit && a.span.to.None? && a.owner == pm.facilityIdentity;
      assert GovernedBy(cat, pm.facilityIdentity, resp.unit, now);
      assert Responsible(cat, pm, now, resp);
    }
  }

  /** The converse fails: an affiliation that ended but ends no earlier than
      `now` still grants permission without placing the postmark in my_region. */
  lemma PermissionReachesBeyondMyRegion()
    ensures
      var user := Principal(1, true, false, {5});
      var pm := Postmark(1, 3, "K", "", "");
      var cat := Catalog([], [], [], [], [Responsibility(1, 10, Group(5, "Editors"), true)],
        [Dated(1, 3, Interval(18600101, Some(20300101)), AffiliationDetails(10, ""))], [pm], [], [], []);
      HasObjectPermission(cat, user, "POST", PostmarkTarget(pm), Instant(20250101, 0)) &&
      MyRegion(cat, user) == Ok([])
  {
    var user := Principal(1, true, false, {5});
    var pm := Postmark(1, 3, "K", "", "");
    var resp := Responsibility(1, 10, Group(5, "Editors"), true);
    var a := Dated(1, 3, Interval(18600101, Some(20300101)), AffiliationDetails(10, ""));
    var cat := Catalog([], [], [], [], [resp], [a], [pm], [], [], []);
    var now := Instant(20250101, 0);
    assert a in cat.affiliations;
    assert GovernedBy(cat, 3, 10, now);
    assert resp in cat.responsibilities && Responsible(cat, pm, now, resp);
    assert !InMyRegion(cat, user, pm);
    assert Filter((p: Postmark) => InMyRegion(cat, user, p), cat.postmarks) == [];
  }

  /** PostmarkViewSet.by_facility: 400 without `facility_id`, a server error
      when it is not a number (`parseId` stands for the primary-key conversion,
      which accepts any integer, negative ones included), otherwise the
      postmarks of every identity of that facility. */
  function ByFacility(cat: Catalog, facilityParam: Option<string>, parseId: string -> Option<int>): (r: Reply<seq<Postmark>>)
    ensures (facilityParam.None? || facilityParam.value == "") <==> r == BadRequest("facility_id parameter is required")
    ensures r.ServerError? <==> facilityParam.Some? && facilityParam.value != "" && parseId(facilityParam.value).None?
    ensures r.Ok? ==> forall pm :: pm in r.body <==> (pm in cat.postmarks &&
      exists fi :: fi in cat.facilityIdentities && fi.owner as int == parseId(facilityParam.value).value && fi.id == pm.facilityIdentity)
  {
    if facilityParam.None? || facilityParam.value == "" then BadRequest("facility_id parameter is required")
    else match parseId(facilityParam.value)
      case None => ServerError("Field 'postal_facility_id' expected a number")
      case Some(id) =>
        Ok(Filter((pm: Postmark) => exists fi :: fi in cat.facilityIdentities && fi.owner as int == id && fi.id == pm.facilityIdentity,
                  cat.postmarks))
  }

  /** A negative number is a valid query value that matches no facility. */
  lemma ByFacilityNegativeIdFindsNothing(cat: Catalog, param: string, parseId: string -> Option<int>)
    requires param != "" && parseId(param).Some? && parseId(param).value < 0
    ensures ByFacility(cat, Some(param), parseId) == Ok([])
  {
    var id := parseId(param).value;
    var p := (pm: Postmark) => exists fi :: fi in cat.facilityIdentities && fi.owner as int == id && fi.id == pm.facilityIdentity;
    FilterLength(p, cat.postmarks);
  }

  // ---------------------------------------------------------------------------
  // Image moderation

  const NotResponsibleMessage := "You are not responsible for this region"

  /** PostmarkImageViewSet.approve and .reject: IsAuthenticatedOrReadOnly turns
      an anonymous POST away with 403 first; then 403 unless one of the user's
      groups is responsible for the image's postmark, otherwise `done`. */
  function Moderate(cat: Catalog, user: User, image: PostmarkImage, pm: Postmark, now: Instant, done: string): (r: Reply<string>)
    requires pm.id == image.postmark
    ensures !user.isAuthenticated <==> r == Forbidden(NotAuthenticatedMessage)
    ensures user.isAuthenticated ==>
      (r.Forbidden? <==> forall g :: g in ResponsibleGroups(cat, pm, now) ==> g.id !in user.groups)
    ensures user.isAuthenticated && r.Forbidden? ==> r.message == NotResponsibleMessage
    ensures r.Ok? ==> r.body == done
  {
    if !user.isAuthenticated then Forbidden(NotAuthenticatedMessage)
    else if UserResponsibleFor(cat, user, pm, now) then Ok(done)
    else Forbidden(NotResponsibleMessage)
  }

  function Approve(cat: Catalog, user: User, image: PostmarkImage, pm: Postmark, now: Instant): (r: Reply<string>)
    requires pm.id == image.postmark
    ensures r.Ok? <==> (user.isAuthenticated &&
      exists resp :: resp in cat.responsibilities && Responsible(cat, pm, now, resp) && resp.group.id in user.groups)
    ensures r.Ok? ==> r.body == "image approved"
    ensures !user.isAuthenticated ==> r == Forbidden(NotAuthenticatedMessage)
    ensures user.isAuthenticated && !r.Ok? ==> r == Forbidden(NotResponsibleMessage)
  {
    Moderate(cat, user, image, pm, now, "image approved")
  }

  function Reject(cat: Catalog, user: User, image: PostmarkImage, pm: Postmark, now: Instant): (r: Reply<string>)
    requires pm.id == image.postmark
    ensures r.Ok? <==> (user.isAuthenticated &&
      exists resp :: resp in cat.responsibilities && Responsible(cat, pm, now, resp) && resp.group.id in user.groups)
    ensures r.Ok? ==> r.body == "image rejected"
    ensures !user.isAuthenticated ==> r == Forbidden(NotAuthenticatedMessage)
    ensures user.isAuthenticated && !r.Ok? ==> r == Forbidden(NotResponsibleMessage)
  {
    Moderate(cat, user, image, pm, now, "image rejected")
  }

  /** A user may moderate an image exactly when they are signed in and may
      change its postmark; an anonymous user may do neither (see
      AnonymousNeverMutatesAPostmark). */
  lemma ModerationAgreesWithPostmarkPermission(cat: Catalog, user: User, image: PostmarkImage, pm: Postmark, now: Instant)
    requires pm.id == image.postmark
    ensures Approve(cat, user, image, pm, now).Ok? <==>
      (user.isAuthenticated && HasObjectPermission(cat, user, "POST", PostmarkTarget(pm), now))
    ensures Reject(cat, user, image, pm, now).Ok? <==> Approve(cat, user, image, pm, now).Ok?
  {
    assert "POST" !in SafeMethods;
  }

  // ---------------------------------------------------------------------------
  // Audit stamping

  /** A row with its audit columns. */
  datatype Stamped<T> = Stamped(row: T, audit: Audit)

  /** perform_create: both audit columns name the requesting user. */
  function PerformCreate<T>(row: T, user: User): (r: Stamped<T>)
    ensures r.row == row
    ensures r.audit.createdBy == Some(user.id) && r.audit.modifiedBy == Some(user.id)
  {
    Stamped(row, Audit(Some(user.id), Some(user.id)))
  }

  /** perform_update: only the modifier changes. */
  function PerformUpdate<T>(s: Stamped<T>, row: T, user: User): (r: Stamped<T>)
    ensures r.row == row
    ensures r.audit.createdBy == s.audit.createdBy
    ensures r.audit.modifiedBy == Some(user.id)
  {
    Stamped(row, s.audit.(modifiedBy := Some(user.id)))
  }

  /** PostcoverViewSet.perform_create: the creator also becomes the owner. */
  function PerformCreatePostcover(cover: Postcover, user: User): (r: Stamped<Postcover>)
    ensures r.row.owner == user.id && r.row.id == cover.id && r.row.key == cover.key
    ensures r.audit.createdBy == Some(user.id) && r.audit.modifiedBy == Some(user.id)
  {
    PerformCreate(cover.(owner := user.id), user)
  }

  /** A create followed by updates from `editors`, in order. */
  function History<T>(row: T, creator: User, editors: seq<User>): (r: Stamped<T>)
    ensures r.row == row
    decreases |editors|
  {
    if |editors| == 0 then PerformCreate(row, creator)
    else PerformUpdate(History(row, creator, editors[..|editors| - 1]), row, editors[|editors| - 1])
  }

  /** However many updates follow, the creator stays recorded and the last
      editor is the recorded modifier. */
  lemma {:induction false} CreatorSurvivesUpdates<T>(row: T, creator: User, editors: seq<User>)
    ensures History(row, creator, editors).audit.createdBy == Some(creator.id)
    ensures History(row, creator, editors).audit.modifiedBy ==
      Some(if |editors| == 0 then creator.id else editors[|editors| - 1].id)
    decreases |editors|
  {
    if |editors| > 0 {
      CreatorSurvivesUpdates(row, creator, editors[..|editors| - 1]);
    }
  }
}
